=== FILE: README.md ===
# Vehicle-routing genetic algorithm: a Dafny model

This project models the search engine of a small genetic algorithm for the vehicle-routing
problem. An individual is a permutation of customer identifiers. The fixed-split decoder cuts it
into `V` contiguous routes of nearly equal size. Each route is a closed tour from the depot and
back. The algorithm breeds new populations by tournament selection, order crossover and swap
mutation, and tracks the best individual it has seen.

The repository has two versions of the operators:

- the `ga` package (`ga/chromosome.py`, `ga/operators.py`, `ga/fitness.py`, `ga/ga_solver.py`);
- the stand-alone script `ga_vrp.py`.

Both are modelled, together with the instance preparation in `utils.py`. Every random draw of
the source becomes an explicit argument. This covers `random.sample`, `random.random` and
`random.randrange`. A predicate states which draws are possible, so each contract is about
every outcome the random generator could produce.

Modules, one per source file plus a shared one:

- `Perms` holds shared sequence facts: duplicate-freedom, permutations as multiset equality,
  the list filter `[x for x in s if x not in seg]` (`Without`), and the swap.
- `Chromosome` models `ga/chromosome.py`: `create_individual` and `decode_routes`.
  `ga_vrp.py:24-37` is the same decoder with the vehicle count as a default argument, so
  `Chromosome.DecodeRoutes` stands for both. The same goes for `create_individual` at
  `ga_vrp.py:40-41`.
- `Operators` models `ga/operators.py`: order crossover with an inclusive segment, and
  per-position swap mutation.
- `Fitness` models `ga/fitness.py`: route cost over a matrix of `real`s, the total over the
  decoded routes, and the negated total as fitness.
- `Utils` models `utils.py`: the customer dict in ascending key order, and the distance matrix.
- `VrpGa` models `ga_vrp.py`: order crossover with an exclusive segment, wrap-around fill and a
  safety pass; single-swap mutation; reciprocal fitness. It also proves that this fitness
  agrees with the matrix-based one of `ga/fitness.py`.
- `Solver` models `ga/ga_solver.py`: tournament selection, breeding, the generation step, and
  the run with its best-so-far and per-generation history. The loop is generic in the value
  `cost` it minimises.

## Model

| member | source | states |
|---|---|---|
| Chromosome.CreateIndividual | ga/chromosome.py:3-8 | For every possible sampling draw, the individual has one entry per customer key and is a rearrangement of the keys. It is duplicate-free when the keys are. |
| Chromosome.TakeFromPool | ga/chromosome.py:8 | One draw of `random.sample` removes exactly the drawn entry from the pool. Entries before it stay in place, and the pool's last entry moves into the vacancy. |
| Chromosome.RefillExample | ga/chromosome.py:8 | Drawing position 0 from the pool `[10, 20, 30]` leaves `[30, 20]`. |
| Chromosome.RouteSizes | ga/chromosome.py:15-19 | There is one size per vehicle, and the sizes add up to the number of customers. |
| Chromosome.BalancedSum | ga/chromosome.py:19 | `v` sizes of `base`, with the first `extra` enlarged by one, add up to `v * base + extra` (with `extra` clamped to `0..v`). |
| Chromosome.SplitAt | ga/chromosome.py:21-26 | The slicing loop yields one slice per size, each of that size. |
| Chromosome.SplitAtCovers | ga/chromosome.py:21-26 | The slices, concatenated in order, are exactly the part of the individual the loop walks over: nothing is skipped or repeated. |
| Chromosome.DecodeRoutes | ga/chromosome.py:10-27 | There are exactly `num_vehicles` routes, their concatenation is the individual, and route `i` has the `i`-th balanced size. |
| Chromosome.DecodeSizes | ga/chromosome.py:15-19 | The first `n % V` routes have `n // V + 1` customers and the others `n // V`, so the sizes never increase along the list. |
| Chromosome.DecodeManyVehicles | ga/chromosome.py:19-27 | With more vehicles than customers, the first `n` routes hold one customer each, in order, and exactly the trailing routes are empty. |
| Chromosome.DecodeRouteIsSlice | ga/chromosome.py:22-26 | Route `i` is the slice of the individual that starts at the sum of the sizes of the routes before it. |
| Chromosome.DecodeFlattenRoundTrip | ga_vrp.py:24-37 | Decoding is a right inverse of concatenation: routes with the balanced sizes come back from their concatenation. |
| Operators.SegmentTemplate | ga/operators.py:10-13 | The template has the parent's length. Exactly the positions outside `a..b` are empty, and the positions inside hold parent1's genes. |
| Operators.SegmentTemplateHoles | ga/operators.py:10-13 | The template has one empty position per gene outside the segment, `n - (b + 1 - a)` in all. |
| Operators.Fill | ga/operators.py:15-21 | The fill loop keeps every copied gene, and the empty positions, read left to right, receive the first items in order. |
| Operators.Crossover | ga/operators.py:3-23 | The child has the parents' length and keeps `parent1[a..b]` inclusive. Its other positions, read left to right, are parent2's genes outside that segment, in parent2's order. |
| Operators.CrossoverUsesAllRemaining | ga/operators.py:16-21 | When the parents are duplicate-free rearrangements of each other, parent2 has exactly enough genes outside the segment. The positions outside the segment receive all of them, in parent2's order. |
| Operators.CrossoverPermutation | ga/operators.py:13-21 | When the parents are duplicate-free rearrangements of each other, the crossover is defined and the child is a duplicate-free rearrangement of parent1. |
| Operators.CrossoverWholeSegment | ga/operators.py:13 | With `a = 0` and `b = n - 1` the child is a copy of parent1. |
| Operators.MutateFrom | ga/operators.py:29-33 | The remaining loop iterations keep the length and the multiset of genes. If none of their draws falls below `pm`, they change nothing. |
| Operators.Mutate | ga/operators.py:25-34 | Mutation keeps the length and is a rearrangement of its input. When no draw falls below `pm`, the individual is unchanged. |
| Operators.MutateKeepsPermutation | ga/operators.py:29-34 | A mutated permutation of duplicate-free keys is still one, and `pm <= 0` leaves the individual unchanged. |
| Perms.Swap | ga/operators.py:33 | The swap exchanges positions `i` and `j`, touches nothing else, and keeps the multiset. |
| Perms.Without | ga/operators.py:16 | The filter keeps exactly the values of `s` that are not in `seg`, a sub-multiset of `s`. |
| Fitness.Legs | ga/fitness.py:9-10 | The legs between neighbours cost at least 0 over a non-negative matrix. |
| Fitness.RouteDistance | ga/fitness.py:5-12 | An empty route costs 0. A non-empty route costs the legs of the closed tour depot, route, depot. The cost is non-negative over a non-negative matrix. |
| Fitness.RouteReverse | ga/fitness.py:8-12 | Over a symmetric matrix, a route and its reversal cost the same. |
| Fitness.LegsReverse | ga/fitness.py:9-10 | Over a symmetric matrix, walking a path backwards costs the same. |
| Fitness.SumRoutes | ga/fitness.py:16 | The sum of the route costs is non-negative over a non-negative matrix, and 0 when every route is empty. |
| Fitness.TotalDistance | ga/fitness.py:14-16 | The total over the decoded routes is non-negative over a non-negative matrix. |
| Fitness.TotalDistanceOneVehicle | ga/fitness.py:14-16 | With one vehicle, the total is the cost of the single closed tour through the whole individual. |
| Fitness.TotalDistanceEmpty | ga/fitness.py:6-7 | An individual with no customers travels nothing, whatever the vehicle count. |
| Fitness.Fitness | ga/fitness.py:18-19 | The fitness is never positive over a non-negative matrix. |
| Fitness.FitnessOrder | ga/fitness.py:18-19 | Higher fitness means a total that is no longer, and the converse holds. Equal fitness means an equal total, and the converse holds. |
| Utils.SortKeys | utils.py:9 | `sorted` of distinct keys is strictly ascending and is a rearrangement of the keys. |
| Utils.AscendingUnique | utils.py:9 | Two strictly ascending sequences with the same values are equal. |
| Utils.OrderedCustomers | utils.py:4-11 | The keys are strictly ascending and a rearrangement of the dict's keys. The customer list has the same length, and entry `i` is the value stored under the `i`-th sorted key `r.0[i]`. |
| Utils.OrderedCustomersCanonical | utils.py:9 | Any strictly ascending listing of the dict's keys is the one returned. |
| Utils.SquaredDistanceSymmetric | utils.py:25-27 | `dx*dx + dy*dy` does not change when the two points are swapped. |
| Utils.DistanceMatrix | utils.py:13-28 | The matrix is `(N+1) x (N+1)` and symmetric, with a zero diagonal. Entry `(i, j)` is the root of the squared distance between the depot or customer behind each index. It is non-negative when the root is. |
| VrpGa.Template | ga_vrp.py:59-60 | The fresh child has the parent's length. It holds `parent1[start:end]` at positions `start..end-1`, and `-1` everywhere else. |
| VrpGa.Place | ga_vrp.py:61-65 | The fill loop keeps the length and only writes genes of parent2. |
| VrpGa.FirstMissing | ga_vrp.py:69-72 | The inner scan stops at the first gene of parent2 that the child lacks. Every earlier gene is already in the child, and the scan reaches the end only when the child lacks none. |
| VrpGa.Repair | ga_vrp.py:66-72 | The safety pass keeps the length. It changes only positions still holding `-1`, and only to genes of parent2. |
| VrpGa.WrapCrossover | ga_vrp.py:57-73 | For any cut points `start < end < n`, the child has the parent's length. Each entry is `-1`, a gene of the copied segment, or a gene of parent2. |
| VrpGa.WrapCrossoverPermutation | ga_vrp.py:57-73 | This holds for duplicate-free parents that are rearrangements of each other and hold no `-1`. The child keeps `parent1[start:end]`. Parent2's remaining genes fill positions `end..n-1` and then `0..start-1`, in order. The safety pass changes nothing, and the child is a duplicate-free rearrangement of parent1. |
| VrpGa.PlaceFrom | ga_vrp.py:62-65 | Entered at any gene of parent2 with the child and pointer the earlier genes produce, the fill loop ends with every outside position filled. |
| VrpGa.PointerAdvance | ga_vrp.py:65 | The pointer update `(pointer + 1) % n` moves from the position of the `m`-th write after `end` to that of the `(m+1)`-th, counting round the end. |
| VrpGa.MutateOnce | ga_vrp.py:75-79 | Below the rate, positions `i` and `j` swap and nothing else changes; otherwise the individual is unchanged. Either way, it is a rearrangement of its input. |
| VrpGa.MutateOnceInvolution | ga_vrp.py:75-79 | Applying the same draw twice gives the individual back. |
| VrpGa.VrpLegs | ga_vrp.py:50-51 | The legs between neighbouring customers are non-negative for a non-negative distance. |
| VrpGa.VrpLegsIsPath | ga_vrp.py:50-51 | The legs between neighbouring customers are the length of the polyline through their points, in route order. |
| VrpGa.PathAppend | ga_vrp.py:52 | Extending a polyline by one point adds exactly the leg to that point. |
| VrpGa.VrpRouteCost | ga_vrp.py:46-52 | An empty route is skipped and costs 0. A non-empty route costs the length of the closed polyline from the depot through its customers in order and back to the depot. The cost is non-negative for a non-negative distance. |
| VrpGa.VrpSumRoutes | ga_vrp.py:45-53 | The sum over the routes is non-negative for a non-negative distance, and 0 when every route is empty. |
| VrpGa.VrpTotal | ga_vrp.py:43-53 | The total over the decoded routes is non-negative for a non-negative distance. |
| VrpGa.Reciprocal | ga_vrp.py:55 | The result is never negative. For a positive total it is its inverse (`f * total == 1`), otherwise 0. |
| VrpGa.VrpFitness | ga_vrp.py:43-55 | The fitness is never negative. It is positive exactly when the total is positive, and then it is the total's inverse. |
| VrpGa.ReciprocalOrder | ga_vrp.py:55 | Among positive totals, a shorter total has a larger fitness and the converse holds. Equal fitness means an equal total, and the converse holds. |
| VrpGa.VrpTotalAgrees | ga_vrp.py:43-53 | Over a matrix of the same distances, the point-based total equals the matrix-based total of `ga/fitness.py`. |
| VrpGa.VrpFitnessAgrees | ga_vrp.py:55 | The reciprocal fitness is the reciprocal of the negated matrix-based fitness. |
| Solver.ArgMin | ga/ga_solver.py:11 | `min(..., key=...)` picks a position of smallest value, and the first one among equals. |
| Solver.ArgMinFrom | ga/ga_solver.py:11 | The scan keeps the first smallest value: it moves only to a strictly smaller one. |
| Solver.PicksFitPopulation | ga/ga_solver.py:10 | `k` distinct tournament positions can only be drawn from a population of at least `k`. |
| Solver.Costs | ga/ga_solver.py:32 | The value list has one entry per individual, and entry `i` is the value of individual `i`. The same list is rebuilt at `ga/ga_solver.py:60`. |
| Solver.Tournament | ga/ga_solver.py:6-11 | The winner is one of the drawn positions, its value is minimal among them, and every earlier draw has a strictly larger value. |
| Solver.RecombineDefined | ga/ga_solver.py:47-49 | When the crossover draw is below `pc`, both crossovers of the two parents are defined: each parent is a duplicate-free rearrangement of the other. |
| Solver.Recombine | ga/ga_solver.py:47-52 | Below `pc`, the children are exactly `crossover(parent1, parent2)` and `crossover(parent2, parent1)` at the drawn cut points. Otherwise they are copies of the parents. Both are rearrangements of the keys. |
| Solver.Breed | ga/ga_solver.py:43-56 | Both children are duplicate-free rearrangements of the keys. Without crossover or mutation, they are the two tournament winners for the drawn contestants, in draw order, so members of the population. |
| Solver.Offspring | ga/ga_solver.py:42-56 | The loop appends two children per iteration, all rearrangements of the keys. |
| Solver.PairsNeededCeil | ga/ga_solver.py:42 | From `len` individuals, the `while` loop appends `ceil((pop_size - len) / 2)` pairs. |
| Solver.PairsFromEmpty | ga/ga_solver.py:42-59 | From an empty list the loop runs `ceil(pop_size / 2)` times. That is enough for `pop_size` children, and one iteration fewer is not. |
| Solver.Generation | ga/ga_solver.py:39-59 | After the trim, the new population has exactly `pop_size` members, all rearrangements of the keys. Without crossover or mutation, they are all old members. |
| Solver.Trajectory | ga/ga_solver.py:38-59 | A run of `g` generations starts from the initial population, and every population along it holds `pop_size` permutations of the keys. |
| Solver.Initial | ga/ga_solver.py:31 | The initial population has `pop_size` members, each a rearrangement of the customer keys. |
| Solver.MinimaAppend | ga/ga_solver.py:63-64 | Appending the minimum of the next population keeps the history matched to the populations. |
| Solver.BestStep | ga/ga_solver.py:66-68 | The best is replaced only by a strictly smaller generation minimum. It stays a lower bound of the initial values and the history, one of those values, and it never increases. |
| Solver.FirstBestStep | ga/ga_solver.py:63-68 | The strict update keeps the earliest best individual. It stays the first of smallest value in its population, and every earlier population has only strictly larger values. |
| Solver.SolveGa | ga/ga_solver.py:13-73 | The history has one entry per generation: entry `g` is the smallest value of the population after generation `g`. The best cost is the value of the best individual, a permutation of the keys. It is at most every initial value and every history entry, and is one of them. The individual is a member of a population of the run: the initial one or one a generation produced. Among equal values it is the one `min` picks in the earliest population that reaches the best value, since the update is strict. The routes are the individual's decoding. |

## Left out

- The experiment driver `run_ga.py`, the plotting module `plots_tables.py` and the instance data
  `ga_vrp_instances.py` are not part of this model. They do I/O, plotting and fixed data.
- The `genetic_algorithm` driver of `ga_vrp.py` (lines 86-107), its printing,
  `visualize_individual`, and the module globals (lines 8-16) are not modelled. The instance,
  the vehicle count and the rates are parameters instead.
- The random generator and `random.seed` are not modelled. Every draw is an explicit argument,
  and a predicate states which draws are possible.
- Floating point is replaced by exact `real` arithmetic. `math.hypot` and `** 0.5` become a
  function parameter (`dist` for `ga_vrp.py`, `root` for `utils.py`).
- numpy arrays are modelled as `seq<seq<real>>`.
- In-place updates are not modelled: `mutate` returning the same list object, and list
  aliasing. Every operation returns a new sequence, so breeding cannot change the current
  population.
- `ga/fitness.py` imports `Individual`, which `ga/chromosome.py` never defines.
  `ga/ga_solver.py` calls `fitness` with four arguments, but the function takes three. The
  fitness is the negated distance, yet the solver takes `min` of it. For these reasons the
  solver is generic over an abstract per-individual value that it minimises, and it is not
  tied to `Fitness.Fitness`.
- The instance data keys customers from 0, while `ga/fitness.py` reads identifiers as matrix
  indices with the depot at index 0. The model keeps the two apart: `VrpGa.SharedIds` asks for
  identifiers other than 0 when it relates the two fitness functions.
- Crossover and single-swap mutation draw two distinct positions. The source raises
  `ValueError` when there are fewer than two. The model's draw-validity preconditions exclude
  that case: `a < b < n`, `start < end < n`, and `i != j` below the rate.
- A tournament larger than the population also makes `random.sample` raise. The precondition
  `ValidPicks` excludes that, and `Solver.PicksFitPopulation` shows that it forces `k <= size`.
- An empty population makes `min` raise. `Solver.SolveGa` requires `pop_size >= 1`.
- `ga_vrp.py` reads `CUSTOMERS[r[0]]`, which raises `KeyError` for an unknown identifier. The
  model requires every identifier to be a key (`VrpGa.KnownIds`).
- Chromosome.DecodeRoutes requires `num_vehicles >= 1`, and so do `Fitness.TotalDistance`,
  `VrpGa.VrpTotal` and `Solver.SolveGa`. The source raises `ZeroDivisionError` for 0 vehicles
  (`ga/chromosome.py:16`), and returns no routes for a negative count.
- Operators.CrossoverDefined is a precondition of `Operators.Crossover`. It excludes parents
  for which parent2 has too few genes outside the segment, where `ga/operators.py:20` raises
  `IndexError`. `Operators.CrossoverUsesAllRemaining` shows that permutation parents always
  meet it.
- Fitness.ValidIds requires every identifier to be a row of the square matrix
  (`0 <= id < |m|`). numpy also accepts negative indices, which count from the end, and raises
  `IndexError` past the end. Neither behaviour is modelled.
- The `None` placeholder of `ga/operators.py` is modelled as the `Hole` cell of a `Cell`
  datatype, since a Dafny sequence of genes has no null value.
- Solver.Trajectory: its contract states the shape and validity of every population, not the
  step from one population to the next; that step is its definition, not a separate lemma.

=== FILE: chromosome.dfy ===
/** The chromosome of the genetic algorithm: a permutation of customer identifiers, and the
    fixed split that decodes it into `v` contiguous vehicle routes of nearly equal size. */
module Chromosome {
  import opened Perms

  /** `picks` is a possible draw sequence of a sample of `n` values without replacement:
      the `t`-th draw chooses one of the `n - t` values still in the pool. */
  predicate ValidSampleDraws(picks: seq<nat>, n: nat) {
    |picks| == n && forall t :: 0 <= t < |picks| ==> picks[t] < n - t
  }

  /** The pool after `random.sample` takes the entry at `i`: the pool's last entry moves
      into the vacancy (unless it was the one taken) and the pool shrinks by one. */
  function TakeFromPool<K>(pool: seq<K>, i: nat): (rest: seq<K>)
    requires i < |pool|
    ensures |rest| == |pool| - 1
    ensures multiset(rest) + multiset{pool[i]} == multiset(pool)
    ensures rest[..i] == pool[..i]
    ensures i < |pool| - 1 ==> rest[i] == pool[|pool| - 1] && rest[i + 1..] == pool[i + 1..|pool| - 1]
  {
    var last := |pool| - 1;
    if i < last then
      var rest := pool[..i] + [pool[last]] + pool[i + 1..last];
      RefillMultiset(pool, i, rest);
      rest
    else
      assert pool == pool[..i] + [pool[i]];
      pool[..i]
  }

  /** Moving the last entry into the vacancy at `i` loses exactly the entry taken. */
  lemma RefillMultiset<K>(pool: seq<K>, i: nat, rest: seq<K>)
    requires i < |pool| - 1 && rest == pool[..i] + [pool[|pool| - 1]] + pool[i + 1..|pool| - 1]
    ensures multiset(rest) + multiset{pool[i]} == multiset(pool)
  {
    var last := |pool| - 1;
    assert pool == pool[..i] + [pool[i]] + pool[i + 1..last] + [pool[last]];
  }

  /** A random individual: `random.sample` of all customer keys. Each draw `picks[t]` takes
      the entry at that position of the shrinking pool, which starts as the keys in order. */
  function CreateIndividual<K(==)>(keys: seq<K>, picks: seq<nat>): (ind: seq<K>)
    requires ValidSampleDraws(picks, |keys|)
    ensures |ind| == |keys|
    ensures IsPermutationOf(ind, keys)
    ensures Distinct(keys) ==> Distinct(ind)
    decreases |keys|
  {
    if |keys| == 0 then []
    else
      var i := picks[0];
      var pool := TakeFromPool(keys, i);
      assert ValidSampleDraws(picks[1..], |pool|) by {
        forall t | 0 <= t < |picks[1..]| ensures picks[1..][t] < |pool| - t {
          assert picks[1..][t] == picks[t + 1];
        }
      }
      var r := [keys[i]] + CreateIndividual(pool, picks[1..]);
      assert Distinct(keys) ==> Distinct(r) by {
        if Distinct(keys) {
          PermutationKeepsDistinct(r, keys);
        }
      }
      r
  }

  /** Taking the first of three keys moves the last key into the vacancy. */
  lemma RefillExample()
    ensures TakeFromPool([10, 20, 30], 0) == [30, 20]
  {
    var pool := TakeFromPool([10, 20, 30], 0);
    assert pool[0] == 30 && pool[1..] == [20];
    assert pool == [pool[0]] + pool[1..];
  }

  /** Sum of a sequence of sizes, first element first. */
  function Sum(s: seq<nat>): nat {
    if |s| == 0 then 0 else s[0] + Sum(s[1..])
  }

  /** The concatenation of the routes in order. */
  function Flatten<T>(routes: seq<seq<T>>): seq<T> {
    if |routes| == 0 then [] else routes[0] + Flatten(routes[1..])
  }

  /** `v` sizes of `base`, of which the first `extra` (when positive) are one larger. */
  function Balanced(v: nat, base: nat, extra: int): (sizes: seq<nat>) {
    seq(v, i => base + (if i < extra then 1 else 0))
  }

  /** The route sizes the decoder uses for `n` customers and `v` vehicles: `n // v` each,
      plus one for each of the first `n % v` vehicles. */
  function RouteSizes(n: nat, v: nat): (sizes: seq<nat>)
    requires v >= 1
    ensures |sizes| == v
    ensures Sum(sizes) == n
  {
    BalancedSum(v, n / v, n % v);
    Balanced(v, n / v, n % v)
  }

  /** The sizes of a balanced split add up to `v * base` plus the number of enlarged entries. */
  lemma {:induction false} BalancedSum(v: nat, base: nat, extra: int)
    ensures Sum(Balanced(v, base, extra)) == v * base + (if extra < 0 then 0 else if extra > v then v else extra)
  {
    if v > 0 {
      var sizes := Balanced(v, base, extra);
      assert sizes[1..] == Balanced(v - 1, base, extra - 1);
      BalancedSum(v - 1, base, extra - 1);
      assert Sum(sizes) == sizes[0] + Sum(sizes[1..]);
      assert sizes[0] == base + (if 0 < extra then 1 else 0);
      assert v * base == (v - 1) * base + base;
    }
  }

  /** The loop of the decoder: starting at offset `idx`, cut one slice per entry of `sizes`,
      advancing the offset by that size each time. */
  function SplitAt<T>(ind: seq<T>, sizes: seq<nat>, idx: nat): (routes: seq<seq<T>>)
    requires idx + Sum(sizes) <= |ind|
    ensures |routes| == |sizes|
    ensures forall i :: 0 <= i < |sizes| ==> |routes[i]| == sizes[i]
  {
    if |sizes| == 0 then []
    else [ind[idx..idx + sizes[0]]] + SplitAt(ind, sizes[1..], idx + sizes[0])
  }

  /** The slices cover the individual from `idx` on, in order and without overlap. */
  lemma {:induction false} SplitAtCovers<T>(ind: seq<T>, sizes: seq<nat>, idx: nat)
    requires idx + Sum(sizes) <= |ind|
    ensures Flatten(SplitAt(ind, sizes, idx)) == ind[idx..idx + Sum(sizes)]
  {
    if |sizes| > 0 {
      var next := idx + sizes[0];
      SplitAtCovers(ind, sizes[1..], next);
      assert SplitAt(ind, sizes, idx)[1..] == SplitAt(ind, sizes[1..], next);
      assert ind[idx..idx + Sum(sizes)] == ind[idx..next] + ind[next..next + Sum(sizes[1..])];
    }
  }

  /** Splits an individual into `v` contiguous routes of nearly equal size. */
  function DecodeRoutes<T>(ind: seq<T>, v: nat): (routes: seq<seq<T>>)
    requires v >= 1
    ensures |routes| == v
    ensures Flatten(routes) == ind
    ensures forall i :: 0 <= i < v ==> |routes[i]| == RouteSizes(|ind|, v)[i]
  {
    SplitAtCovers(ind, RouteSizes(|ind|, v), 0);
    SplitAt(ind, RouteSizes(|ind|, v), 0)
  }

  /** Route sizes differ by at most one: the first `n % v` routes get `n // v + 1` customers,
      the others `n // v`, and so the sizes never increase along the list. */
  lemma DecodeSizes<T>(ind: seq<T>, v: nat)
    requires v >= 1
    ensures forall i :: 0 <= i < v ==>
      |DecodeRoutes(ind, v)[i]| == (if i < |ind| % v then |ind| / v + 1 else |ind| / v)
    ensures forall i, j :: 0 <= i <= j < v ==> |DecodeRoutes(ind, v)[i]| >= |DecodeRoutes(ind, v)[j]|
  {
    var routes := DecodeRoutes(ind, v);
    var sizes := RouteSizes(|ind|, v);
    assert forall i :: 0 <= i < v ==> |routes[i]| == sizes[i];
  }

  /** With more vehicles than customers each customer rides alone, in the leading routes,
      and the trailing routes are empty. */
  lemma DecodeManyVehicles<T>(ind: seq<T>, v: nat)
    requires v > |ind|
    ensures forall i :: 0 <= i < v ==> (DecodeRoutes(ind, v)[i] == [] <==> i >= |ind|)
    ensures forall i :: 0 <= i < |ind| ==> DecodeRoutes(ind, v)[i] == [ind[i]]
  {
    var n := |ind|;
    var routes := DecodeRoutes(ind, v);
    var sizes := RouteSizes(n, v);
    SmallQuotient(n, v);
    assert forall i :: 0 <= i < v ==> |routes[i]| == sizes[i] == (if i < n then 1 else 0);
    forall i | 0 <= i < n ensures routes[i] == [ind[i]] {
      DecodeRouteIsSlice(ind, v, i);
      assert forall k :: 0 <= k < i ==> sizes[..i][k] == 1;
      AllOnesSum(sizes[..i]);
    }
  }

  /** With fewer customers than vehicles every vehicle gets `n // v == 0` customers as its
      base share, and the `n % v == n` first vehicles one more. */
  lemma SmallQuotient(n: nat, v: nat)
    requires n < v
    ensures n / v == 0 && n % v == n
  {
  }

  /** A sequence of ones sums to its length. */
  lemma {:induction false} AllOnesSum(s: seq<nat>)
    requires forall k :: 0 <= k < |s| ==> s[k] == 1
    ensures Sum(s) == |s|
  {
    if |s| > 0 {
      AllOnesSum(s[1..]);
    }
  }

  /** The `i`-th slice starts where the previous slices end. */
  lemma {:induction false} SplitAtSlice<T>(ind: seq<T>, sizes: seq<nat>, idx: nat, i: nat)
    requires idx + Sum(sizes) <= |ind|
    requires i < |sizes|
    ensures idx + Sum(sizes[..i]) + sizes[i] <= |ind|
    ensures SplitAt(ind, sizes, idx)[i] == ind[idx + Sum(sizes[..i])..idx + Sum(sizes[..i]) + sizes[i]]
  {
    if i == 0 {
      assert Sum(sizes[..0]) == 0 by { assert sizes[..0] == []; }
      assert SplitAt(ind, sizes, idx)[0] == ind[idx..idx + sizes[0]];
    } else {
      SplitAtSlice(ind, sizes[1..], idx + sizes[0], i - 1);
      SplitAtSliceStep(ind, sizes, idx, i);
    }
  }

  /** The inductive step of `SplitAtSlice`: the slice found for route `i - 1` of the rest is the
      slice for route `i` of the whole. */
  lemma SplitAtSliceStep<T>(ind: seq<T>, sizes: seq<nat>, idx: nat, i: nat)
    requires idx + Sum(sizes) <= |ind|
    requires 0 < i < |sizes|
    requires idx + sizes[0] + Sum(sizes[1..][..i - 1]) + sizes[1..][i - 1] <= |ind|
    requires SplitAt(ind, sizes[1..], idx + sizes[0])[i - 1] ==
      ind[idx + sizes[0] + Sum(sizes[1..][..i - 1])..idx + sizes[0] + Sum(sizes[1..][..i - 1]) + sizes[1..][i - 1]]
    ensures idx + Sum(sizes[..i]) + sizes[i] <= |ind|
    ensures SplitAt(ind, sizes, idx)[i] == ind[idx + Sum(sizes[..i])..idx + Sum(sizes[..i]) + sizes[i]]
  {
    var rest, next := sizes[1..], idx + sizes[0];
    SplitAtLater(ind, sizes, idx, i);
    PrefixSumStep(sizes, i);
    var a, b := idx + Sum(sizes[..i]), next + Sum(rest[..i - 1]);
    assert a == b;
    assert sizes[i] == rest[i - 1];
    assert SplitAt(ind, sizes, idx)[i] == ind[a..a + sizes[i]];
  }

  /** Every slice after the first comes from splitting the rest of the individual. */
  lemma SplitAtLater<T>(ind: seq<T>, sizes: seq<nat>, idx: nat, i: nat)
    requires idx + Sum(sizes) <= |ind|
    requires 0 < i < |sizes|
    ensures SplitAt(ind, sizes, idx)[i] == SplitAt(ind, sizes[1..], idx + sizes[0])[i - 1]
  {
  }

  /** A prefix sum is the first size plus the prefix sum of the rest. */
  lemma PrefixSumStep(s: seq<nat>, i: nat)
    requires 0 < i <= |s|
    ensures Sum(s[..i]) == s[0] + Sum(s[1..][..i - 1])
    ensures i < |s| ==> s[1..][i - 1] == s[i]
  {
    assert s[..i][1..] == s[1..][..i - 1];
  }

  /** Route `i` of the decoding is the slice of the individual that starts at the sum of the
      sizes of routes `0..i-1`. */
  lemma DecodeRouteIsSlice<T>(ind: seq<T>, v: nat, i: nat)
    requires v >= 1 && i < v
    ensures var sizes := RouteSizes(|ind|, v);
      && Sum(sizes[..i]) + sizes[i] <= |ind|
      && DecodeRoutes(ind, v)[i] == ind[Sum(sizes[..i])..Sum(sizes[..i]) + sizes[i]]
  {
    SplitAtSlice(ind, RouteSizes(|ind|, v), 0, i);
  }

  /** Splitting the concatenation of routes that already have the given sizes gives those
      routes back. */
  lemma {:induction false} SplitAtFlatten<T>(routes: seq<seq<T>>, sizes: seq<nat>)
    requires |routes| == |sizes|
    requires forall i :: 0 <= i < |sizes| ==> |routes[i]| == sizes[i]
    ensures |Flatten(routes)| == Sum(sizes)
    ensures SplitAt(Flatten(routes), sizes, 0) == routes
  {
    if |sizes| > 0 {
      SplitAtFlatten(routes[1..], sizes[1..]);
      var flat := Flatten(routes);
      assert flat == routes[0] + Flatten(routes[1..]);
      SplitAtShift(routes[0], Flatten(routes[1..]), sizes[1..]);
    }
  }

  /** Splitting after a prefix of length `|pre|` is splitting the rest from 0. */
  lemma {:induction false} SplitAtShift<T>(pre: seq<T>, post: seq<T>, sizes: seq<nat>)
    requires Sum(sizes) <= |post|
    ensures SplitAt(pre + post, sizes, |pre|) == SplitAt(post, sizes, 0)
    decreases |sizes|
  {
    if |sizes| > 0 {
      SplitAtShiftFrom(pre, post, sizes, 0);
    }
  }

  lemma {:induction false} SplitAtShiftFrom<T>(pre: seq<T>, post: seq<T>, sizes: seq<nat>, idx: nat)
    requires idx + Sum(sizes) <= |post|
    ensures SplitAt(pre + post, sizes, |pre| + idx) == SplitAt(post, sizes, idx)
    decreases |sizes|
  {
    if |sizes| > 0 {
      var whole, e := pre + post, sizes[0];
      var rest := SplitAt(post, sizes[1..], idx + e);
      SplitAtShiftFrom(pre, post, sizes[1..], idx + e);
      assert SplitAt(whole, sizes[1..], |pre| + (idx + e)) == rest;
      assert whole[|pre| + idx..|pre| + idx + e] == post[idx..idx + e];
      assert SplitAt(post, sizes, idx) == [post[idx..idx + e]] + rest;
    }
  }

  /** The decoder is a right inverse of concatenation: routes that already have the balanced
      sizes for `v` vehicles are recovered from their concatenation. */
  lemma DecodeFlattenRoundTrip<T>(routes: seq<seq<T>>, v: nat)
    requires v >= 1 && |routes| == v
    requires forall i :: 0 <= i < v ==> |routes[i]| == RouteSizes(|Flatten(routes)|, v)[i]
    ensures DecodeRoutes(Flatten(routes), v) == routes
  {
    SplitAtFlatten(routes, RouteSizes(|Flatten(routes)|, v));
  }
}

=== FILE: fitness.dfy ===
/** Route cost over a distance matrix (index 0 is the depot, customer identifiers index the
    other rows), the total cost of a decoded individual, and the negated total used as fitness. */
module Fitness {
  import opened Chromosome

  /** A distance matrix: row `i`, column `j` is the cost of travelling from `i` to `j`. */
  type Matrix = seq<seq<real>>

  predicate IsSquare(m: Matrix) {
    forall i :: 0 <= i < |m| ==> |m[i]| == |m|
  }

  predicate NonNegative(m: Matrix) {
    forall i, j :: 0 <= i < |m| && 0 <= j < |m[i]| ==> m[i][j] >= 0.0
  }

  predicate Symmetric(m: Matrix) {
    IsSquare(m) && forall i, j :: 0 <= i < |m| && 0 <= j < |m| ==> m[i][j] == m[j][i]
  }

  /** `ids` can be looked up in `m`: the matrix is square, has the depot row 0, and every
      identifier is a row and column index. */
  predicate ValidIds(ids: seq<int>, m: Matrix) {
    && |m| > 0
    && IsSquare(m)
    && forall i :: 0 <= i < |ids| ==> 0 <= ids[i] < |m|
  }

  /** The cost of visiting `path` in order, summing the legs between neighbours. */
  function Legs(path: seq<int>, m: Matrix): (d: real)
    requires ValidIds(path, m)
    ensures NonNegative(m) ==> d >= 0.0
  {
    if |path| < 2 then 0.0 else m[path[0]][path[1]] + Legs(path[1..], m)
  }

  /** The cost of one vehicle's route: from the depot to the first customer, along the route,
      and back to the depot; an empty route costs nothing. It is the cost of the closed tour
      that starts and ends at the depot. */
  function RouteDistance(route: seq<int>, m: Matrix): (d: real)
    requires ValidIds(route, m)
    ensures NonNegative(m) ==> d >= 0.0
    ensures |route| == 0 ==> d == 0.0
    ensures |route| > 0 ==> ValidIds([0] + route + [0], m) && d == Legs([0] + route + [0], m)
  {
    if |route| == 0 then 0.0
    else
      ClosedTourLegs(route, m);
      m[0][route[0]] + Legs(route, m) + m[route[|route| - 1]][0]
  }

  /** Appending a stop adds exactly the leg that reaches it. */
  lemma {:induction false} LegsAppend(path: seq<int>, x: int, m: Matrix)
    requires |path| > 0 && ValidIds(path, m) && 0 <= x < |m|
    ensures ValidIds(path + [x], m)
    ensures Legs(path + [x], m) == Legs(path, m) + m[path[|path| - 1]][x]
  {
    assert (path + [x])[1..] == path[1..] + [x];
    if |path| > 1 {
      LegsAppend(path[1..], x, m);
    }
  }

  lemma ClosedTourLegs(route: seq<int>, m: Matrix)
    requires |route| > 0 && ValidIds(route, m)
    ensures ValidIds([0] + route + [0], m)
    ensures Legs([0] + route + [0], m) == m[0][route[0]] + Legs(route, m) + m[route[|route| - 1]][0]
  {
    LegsAppend(route, 0, m);
    assert ([0] + route + [0])[1..] == route + [0];
  }

  /** The route visited backwards. */
  function Reverse(s: seq<int>): (r: seq<int>)
    ensures |r| == |s|
    ensures forall i :: 0 <= i < |s| ==> r[i] == s[|s| - 1 - i]
  {
    if |s| == 0 then [] else Reverse(s[1..]) + [s[0]]
  }

  /** Over a symmetric matrix, walking a path backwards costs the same. */
  lemma {:induction false} LegsReverse(path: seq<int>, m: Matrix)
    requires ValidIds(path, m) && Symmetric(m)
    ensures ValidIds(Reverse(path), m)
    ensures Legs(Reverse(path), m) == Legs(path, m)
  {
    if |path| >= 2 {
      var rest := Reverse(path[1..]);
      LegsReverse(path[1..], m);
      assert Reverse(path) == rest + [path[0]];
      LegsAppend(rest, path[0], m);
      assert rest[|rest| - 1] == path[1];
    }
  }

  /** With a symmetric matrix a route and its reversal have the same cost. */
  lemma RouteReverse(route: seq<int>, m: Matrix)
    requires ValidIds(route, m) && Symmetric(m)
    ensures ValidIds(Reverse(route), m)
    ensures RouteDistance(Reverse(route), m) == RouteDistance(route, m)
  {
    LegsReverse(route, m);
  }

  /** Every customer of a route appears in the concatenation of all routes. */
  lemma {:induction false} FlattenContains<T>(routes: seq<seq<T>>, k: nat, i: nat)
    requires k < |routes| && i < |routes[k]|
    ensures routes[k][i] in Flatten(routes)
  {
    if k > 0 {
      FlattenContains(routes[1..], k - 1, i);
    }
  }

  predicate AllValid(routes: seq<seq<int>>, m: Matrix) {
    forall k :: 0 <= k < |routes| ==> ValidIds(routes[k], m)
  }

  /** The sum of the route costs. */
  function SumRoutes(routes: seq<seq<int>>, m: Matrix): (d: real)
    requires AllValid(routes, m)
    ensures NonNegative(m) ==> d >= 0.0
    ensures (forall k :: 0 <= k < |routes| ==> routes[k] == []) ==> d == 0.0
  {
    if |routes| == 0 then 0.0 else RouteDistance(routes[0], m) + SumRoutes(routes[1..], m)
  }

  /** The decoded routes of a valid individual are valid routes. */
  lemma DecodedRoutesValid(ind: seq<int>, m: Matrix, v: nat)
    requires v >= 1 && ValidIds(ind, m)
    ensures AllValid(DecodeRoutes(ind, v), m)
  {
    var routes := DecodeRoutes(ind, v);
    forall k, i | 0 <= k < |routes| && 0 <= i < |routes[k]| ensures 0 <= routes[k][i] < |m| {
      FlattenContains(routes, k, i);
    }
  }

  /** Total travelled distance of an individual split among `v` vehicles. */
  function TotalDistance(ind: seq<int>, m: Matrix, v: nat): (d: real)
    requires v >= 1 && ValidIds(ind, m)
    ensures NonNegative(m) ==> d >= 0.0
  {
    DecodedRoutesValid(ind, m, v);
    SumRoutes(DecodeRoutes(ind, v), m)
  }

  /** With one vehicle the whole individual is one closed tour from the depot. */
  lemma TotalDistanceOneVehicle(ind: seq<int>, m: Matrix)
    requires ValidIds(ind, m)
    ensures TotalDistance(ind, m, 1) == RouteDistance(ind, m)
  {
    var routes := DecodeRoutes(ind, 1);
    assert Flatten(routes) == routes[0] + Flatten(routes[1..]);
    assert routes[0] == ind;
    DecodedRoutesValid(ind, m, 1);
  }

  /** An individual with no customers travels nothing. */
  lemma TotalDistanceEmpty(ind: seq<int>, m: Matrix, v: nat)
    requires v >= 1 && |ind| == 0 && ValidIds(ind, m)
    ensures TotalDistance(ind, m, v) == 0.0
  {
    var routes := DecodeRoutes(ind, v);
    DecodeSizes(ind, v);
    assert forall k :: 0 <= k < |routes| ==> routes[k] == [];
  }

  /** The fitness the algorithm maximises: the negated total distance. */
  function Fitness(ind: seq<int>, m: Matrix, v: nat): (f: real)
    requires v >= 1 && ValidIds(ind, m)
    ensures NonNegative(m) ==> f <= 0.0
  {
    -TotalDistance(ind, m, v)
  }

  /** Higher fitness means a shorter total distance, and equal fitness an equal distance. */
  lemma FitnessOrder(x: seq<int>, y: seq<int>, m: Matrix, v: nat)
    requires v >= 1 && ValidIds(x, m) && ValidIds(y, m)
    ensures Fitness(x, m, v) >= Fitness(y, m, v) <==> TotalDistance(x, m, v) <= TotalDistance(y, m, v)
    ensures Fitness(x, m, v) == Fitness(y, m, v) <==> TotalDistance(x, m, v) == TotalDistance(y, m, v)
  {
  }
}

=== FILE: operators.dfy ===
/** The genetic operators of the `ga` package: order crossover that keeps an inclusive segment of
    the first parent and fills the other positions left to right, and per-position swap
    mutation. Every random draw is an explicit argument. */
module Operators {
  import opened Perms

  /** A cell of the child under construction: still empty, or already holding a gene. */
  datatype Cell<T> = Hole | Gene(value: T)

  /** The number of empty cells. */
  function Holes<T>(t: seq<Cell<T>>): nat {
    if |t| == 0 then 0 else (if t[0].Hole? then 1 else 0) + Holes(t[1..])
  }

  /** The values of `r` at the positions where `t` is empty, left to right. */
  function AtHoles<T>(r: seq<T>, t: seq<Cell<T>>): seq<T>
    requires |r| == |t|
  {
    if |t| == 0 then [] else (if t[0].Hole? then [r[0]] else []) + AtHoles(r[1..], t[1..])
  }

  /** The fill loop of the crossover: walk the cells left to right and put the next unused
      item into every empty one. Extra items are ignored. */
  function Fill<T>(t: seq<Cell<T>>, items: seq<T>): (r: seq<T>)
    requires Holes(t) <= |items|
    ensures |r| == |t|
    ensures forall i :: 0 <= i < |t| && t[i].Gene? ==> r[i] == t[i].value
    ensures AtHoles(r, t) == items[..Holes(t)]
  {
    if |t| == 0 then []
    else if t[0].Hole? then
      var r := [items[0]] + Fill(t[1..], items[1..]);
      assert r[1..] == Fill(t[1..], items[1..]);
      r
    else
      var r := [t[0].value] + Fill(t[1..], items);
      assert r[1..] == Fill(t[1..], items);
      r
  }

  /** The child before filling: `parent1[a..b]` (both ends included) copied, the rest empty. */
  function SegmentTemplate<T>(p1: seq<T>, a: nat, b: nat): (t: seq<Cell<T>>)
    ensures |t| == |p1|
    ensures forall i :: 0 <= i < |p1| ==> (t[i].Hole? <==> i < a || b < i)
    ensures forall i :: a <= i <= b && i < |p1| ==> t[i] == Gene(p1[i])
  {
    seq(|p1|, i requires 0 <= i < |p1| => if a <= i <= b then Gene(p1[i]) else Hole)
  }

  /** The crossover can run to the end: parent2 has enough genes outside the copied segment
      to fill every other position (otherwise the fill loop indexes past its item list). */
  predicate CrossoverDefined<T(==)>(p1: seq<T>, p2: seq<T>, a: nat, b: nat) {
    && a < b < |p1|
    && |Without(p2, p1[a..b + 1])| >= |p1| - (b + 1 - a)
  }

  /** Order crossover with cut points `a < b` (the sorted pair of distinct positions the
      source draws): the child keeps `parent1[a..b]` inclusive, and its other positions, read
      left to right, hold parent2's genes that are not in that segment, in parent2's order. */
  function Crossover<T(==)>(p1: seq<T>, p2: seq<T>, a: nat, b: nat): (child: seq<T>)
    requires CrossoverDefined(p1, p2, a, b)
    ensures |child| == |p1|
    ensures child[a..b + 1] == p1[a..b + 1]
    ensures child[..a] + child[b + 1..] == Without(p2, p1[a..b + 1])[..|p1| - (b + 1 - a)]
  {
    var t := SegmentTemplate(p1, a, b);
    SegmentTemplateHoles(p1, a, b);
    var child := Fill(t, Without(p2, p1[a..b + 1]));
    AtHolesOfSegment(child, p1, a, b);
    assert child[a..b + 1] == p1[a..b + 1] by {
      forall i | a <= i <= b ensures child[i] == p1[i] {
        assert t[i].Gene?;
      }
    }
    child
  }

  /** Holes and hole contents distribute over concatenation. */
  lemma {:induction false} AtHolesAppend<T>(r1: seq<T>, t1: seq<Cell<T>>, r2: seq<T>, t2: seq<Cell<T>>)
    requires |r1| == |t1| && |r2| == |t2|
    ensures Holes(t1 + t2) == Holes(t1) + Holes(t2)
    ensures AtHoles(r1 + r2, t1 + t2) == AtHoles(r1, t1) + AtHoles(r2, t2)
  {
    if |t1| > 0 {
      assert (t1 + t2)[1..] == t1[1..] + t2;
      assert (r1 + r2)[1..] == r1[1..] + r2;
      AtHolesAppend(r1[1..], t1[1..], r2, t2);
    } else {
      assert t1 + t2 == t2 && r1 + r2 == r2;
    }
  }

  predicate AllHoles<T>(t: seq<Cell<T>>) {
    forall i :: 0 <= i < |t| ==> t[i].Hole?
  }

  predicate AllGenes<T>(t: seq<Cell<T>>) {
    forall i :: 0 <= i < |t| ==> t[i].Gene?
  }

  /** On cells that are all empty, every value is read; on cells that are all full, none. */
  lemma {:induction false} AtHolesUniform<T>(r: seq<T>, t: seq<Cell<T>>)
    requires |r| == |t|
    ensures AllHoles(t) ==> Holes(t) == |t| && AtHoles(r, t) == r
    ensures AllGenes(t) ==> Holes(t) == 0 && AtHoles(r, t) == []
  {
    if |t| > 0 {
      AtHolesUniform(r[1..], t[1..]);
      assert r == [r[0]] + r[1..];
    }
  }

  /** The segment template leaves one empty position for every gene outside `a..b`. */
  lemma SegmentTemplateHoles<T>(p1: seq<T>, a: nat, b: nat)
    requires a <= b < |p1|
    ensures Holes(SegmentTemplate(p1, a, b)) == |p1| - (b + 1 - a)
  {
    var r := p1;
    AtHolesOfSegment(r, p1, a, b);
  }

  /** For the segment template the empty positions are those before `a` and after `b`. */
  lemma AtHolesOfSegment<T>(r: seq<T>, p1: seq<T>, a: nat, b: nat)
    requires a <= b < |p1| && |r| == |p1|
    ensures Holes(SegmentTemplate(p1, a, b)) == |p1| - (b + 1 - a)
    ensures AtHoles(r, SegmentTemplate(p1, a, b)) == r[..a] + r[b + 1..]
  {
    var t := SegmentTemplate(p1, a, b);
    SegmentTemplateParts(p1, a, b);
    var t1, t2, t3 := t[..a], t[a..b + 1], t[b + 1..];
    var r1, r2, r3 := r[..a], r[a..b + 1], r[b + 1..];
    assert r == r1 + r2 + r3;
    AtHolesUniform(r1, t1);
    AtHolesUniform(r2, t2);
    AtHolesUniform(r3, t3);
    AtHolesAppend(r1, t1, r2, t2);
    AtHolesAppend(r1 + r2, t1 + t2, r3, t3);
    assert AtHoles(r1 + r2, t1 + t2) == r1;
    assert AtHoles(r, t) == r1 + r3;
    assert Holes(t) == |t1| + |t3|;
  }

  /** The segment template is empty cells, then the copied segment, then empty cells. */
  lemma SegmentTemplateParts<T>(p1: seq<T>, a: nat, b: nat)
    requires a <= b < |p1|
    ensures var t := SegmentTemplate(p1, a, b);
      && t == t[..a] + t[a..b + 1] + t[b + 1..]
      && AllHoles(t[..a])
      && AllGenes(t[a..b + 1])
      && AllHoles(t[b + 1..])
  {
    var t := SegmentTemplate(p1, a, b);
    assert t == t[..a] + t[a..b + 1] + t[b + 1..];
    var t3 := t[b + 1..];
    forall i | 0 <= i < |t3| ensures t3[i].Hole? {
      assert t3[i] == t[b + 1 + i];
    }
  }

  /** `RemainderOfSlice` for the inclusive segment `a..b`. */
  lemma RemainderOfSegment<T>(p1: seq<T>, p2: seq<T>, a: nat, b: nat)
    requires a <= b < |p1|
    requires Distinct(p2) && IsPermutationOf(p1, p2)
    ensures multiset(Without(p2, p1[a..b + 1])) + multiset(p1[a..b + 1]) == multiset(p1)
    ensures |Without(p2, p1[a..b + 1])| == |p1| - (b + 1 - a)
  {
    var hi := b + 1;
    RemainderOfSlice(p1, p2, a, hi);
    assert p1[a..hi] == p1[a..b + 1];
  }

  /** Crossover of two permutations of the same duplicate-free genes is always defined, and
      the positions outside the segment receive all of parent2's remaining genes. */
  lemma CrossoverUsesAllRemaining<T>(p1: seq<T>, p2: seq<T>, a: nat, b: nat)
    requires a < b < |p1|
    requires Distinct(p2) && IsPermutationOf(p1, p2)
    ensures CrossoverDefined(p1, p2, a, b)
    ensures Crossover(p1, p2, a, b)[..a] + Crossover(p1, p2, a, b)[b + 1..] == Without(p2, p1[a..b + 1])
  {
    RemainderOfSegment(p1, p2, a, b);
    var rest := Without(p2, p1[a..b + 1]);
    var len := |p1| - (b + 1 - a);
    assert |rest| == len;
    assert rest[..len] == rest;
  }

  /** Crossover of two permutations of the same duplicate-free genes yields a permutation of
      those genes: nothing is lost and nothing is duplicated. */
  lemma CrossoverPermutation<T>(p1: seq<T>, p2: seq<T>, a: nat, b: nat)
    requires a < b < |p1|
    requires Distinct(p2) && IsPermutationOf(p1, p2)
    ensures CrossoverDefined(p1, p2, a, b)
    ensures IsPermutationOf(Crossover(p1, p2, a, b), p1)
    ensures Distinct(Crossover(p1, p2, a, b))
  {
    CrossoverMultiset(p1, p2, a, b);
    PermutationKeepsDistinct(p1, p2);
    PermutationKeepsDistinct(Crossover(p1, p2, a, b), p1);
  }

  /** The child holds the segment's genes and the remaining ones, which together are
      parent1's genes. */
  lemma CrossoverMultiset<T>(p1: seq<T>, p2: seq<T>, a: nat, b: nat)
    requires a < b < |p1|
    requires Distinct(p2) && IsPermutationOf(p1, p2)
    ensures CrossoverDefined(p1, p2, a, b)
    ensures multiset(Crossover(p1, p2, a, b)) == multiset(p1)
  {
    RemainderOfSegment(p1, p2, a, b);
    ChildMultiset(Crossover(p1, p2, a, b), p1, p2, a, b);
  }

  /** A child that keeps parent1's segment in place and holds parent2's remaining genes
      around it has exactly parent1's genes. */
  lemma ChildMultiset<T>(child: seq<T>, p1: seq<T>, p2: seq<T>, a: nat, b: nat)
    requires CrossoverDefined(p1, p2, a, b)
    requires Distinct(p2) && IsPermutationOf(p1, p2)
    requires |child| == |p1|
    requires child[a..b + 1] == p1[a..b + 1]
    requires child[..a] + child[b + 1..] == Without(p2, p1[a..b + 1])[..|p1| - (b + 1 - a)]
    ensures multiset(child) == multiset(p1)
  {
    var rest := SegmentRemainder(p1, p2, a, b);
    var lo, hi := a, b + 1;
    assert multiset(rest) + multiset(p1[lo..hi]) == multiset(p1);
    SegmentAndRest(child, p1, lo, hi, rest);
  }

  /** Parent2's genes outside the segment, with the facts `RemainderOfSegment` states. */
  lemma SegmentRemainder<T>(p1: seq<T>, p2: seq<T>, a: nat, b: nat) returns (rest: seq<T>)
    requires a <= b < |p1|
    requires Distinct(p2) && IsPermutationOf(p1, p2)
    ensures rest == Without(p2, p1[a..b + 1])
    ensures multiset(rest) + multiset(p1[a..b + 1]) == multiset(p1)
    ensures |rest| == |p1| - (b + 1 - a)
  {
    RemainderOfSegment(p1, p2, a, b);
    rest := Without(p2, p1[a..b + 1]);
  }

  /** A sequence made of a segment of `p1` in place and, around it, values that complete that
      segment to `p1`'s values, has exactly `p1`'s values. */
  lemma SegmentAndRest<T>(child: seq<T>, p1: seq<T>, lo: nat, hi: nat, rest: seq<T>)
    requires lo <= hi <= |p1|
    requires |child| == |p1|
    requires |rest| == |p1| - (hi - lo)
    requires child[lo..hi] == p1[lo..hi]
    requires child[..lo] + child[hi..] == rest[..|p1| - (hi - lo)]
    requires multiset(rest) + multiset(p1[lo..hi]) == multiset(p1)
    ensures multiset(child) == multiset(p1)
  {
    assert rest[..|p1| - (hi - lo)] == rest;
    SliceOutMultiset(child, lo, hi, rest, p1[lo..hi]);
  }

  /** When the segment is the whole parent, the child is a copy of parent1. */
  lemma CrossoverWholeSegment<T>(p1: seq<T>, p2: seq<T>)
    requires |p1| >= 2
    ensures CrossoverDefined(p1, p2, 0, |p1| - 1)
    ensures Crossover(p1, p2, 0, |p1| - 1) == p1
  {
    var child := Crossover(p1, p2, 0, |p1| - 1);
    assert child == child[0..|p1|];
  }

  /** One random draw of the mutation loop: `u` is `random.random()` and `j` the position
      `random.randrange(n)` that is drawn only when `u < pm`. */
  datatype SwapDraw = SwapDraw(u: real, j: nat)

  /** The draws one mutation call can consume on an individual of length `n`. */
  predicate ValidSwapDraws(draws: seq<SwapDraw>, n: nat, pm: real) {
    && |draws| == n
    && forall i :: 0 <= i < n ==> 0.0 <= draws[i].u < 1.0 && (draws[i].u < pm ==> draws[i].j < n)
  }

  /** Iterations `i..n-1` of the mutation loop: position `i` is swapped with position `j`
      when its draw falls below `pm`. */
  function MutateFrom<T>(s: seq<T>, pm: real, draws: seq<SwapDraw>, i: nat): (r: seq<T>)
    requires ValidSwapDraws(draws, |s|, pm) && i <= |s|
    ensures |r| == |s|
    ensures multiset(r) == multiset(s)
    ensures (forall k :: i <= k < |s| ==> draws[k].u >= pm) ==> r == s
    decreases |s| - i
  {
    if i == |s| then s
    else MutateFrom(if draws[i].u < pm then Swap(s, i, draws[i].j) else s, pm, draws, i + 1)
  }

  /** Swap mutation: keeps the length and the multiset of genes, and changes nothing when no
      draw falls below `pm`. */
  function Mutate<T>(ind: seq<T>, pm: real, draws: seq<SwapDraw>): (r: seq<T>)
    requires ValidSwapDraws(draws, |ind|, pm)
    ensures |r| == |ind|
    ensures IsPermutationOf(r, ind)
    ensures (forall k :: 0 <= k < |ind| ==> draws[k].u >= pm) ==> r == ind
  {
    MutateFrom(ind, pm, draws, 0)
  }

  /** A rate of zero or less leaves every individual unchanged, and a mutated permutation of
      duplicate-free genes stays duplicate-free. */
  lemma MutateKeepsPermutation<T>(ind: seq<T>, keys: seq<T>, pm: real, draws: seq<SwapDraw>)
    requires ValidSwapDraws(draws, |ind|, pm)
    requires IsPermutationOf(ind, keys) && Distinct(keys)
    ensures IsPermutationOf(Mutate(ind, pm, draws), keys)
    ensures Distinct(Mutate(ind, pm, draws))
    ensures pm <= 0.0 ==> Mutate(ind, pm, draws) == ind
  {
    PermutationKeepsDistinct(Mutate(ind, pm, draws), keys);
  }
}

=== FILE: perms.dfy ===
/** Sequence facts shared by every operator of the genetic algorithm: duplicate-freedom,
    permutations (as multiset equality), Python-style list filtering and the in-place swap. */
module Perms {

  /** No value occurs twice in `s`. */
  predicate Distinct<T(==)>(s: seq<T>) {
    forall i, j :: 0 <= i < j < |s| ==> s[i] != s[j]
  }

  /** `p` holds exactly the values of `q`, each as often as `q` does. */
  predicate IsPermutationOf<T(==)>(p: seq<T>, q: seq<T>) {
    multiset(p) == multiset(q)
  }

  /** The values of `s` that do not occur in `seg`, in the order of `s`
      (the comprehension `[x for x in s if x not in seg]`). */
  function Without<T(==)>(s: seq<T>, seg: seq<T>): (r: seq<T>)
    ensures forall i :: 0 <= i < |r| ==> r[i] in s && r[i] !in seg
    ensures forall i :: 0 <= i < |s| && s[i] !in seg ==> s[i] in r
    ensures multiset(r) <= multiset(s)
  {
    if |s| == 0 then []
    else
      assert s == [s[0]] + s[1..];
      if s[0] in seg then Without(s[1..], seg) else [s[0]] + Without(s[1..], seg)
  }

  /** Filtering distributes over concatenation. */
  lemma {:induction false} WithoutAppend<T>(a: seq<T>, b: seq<T>, seg: seq<T>)
    ensures Without(a + b, seg) == Without(a, seg) + Without(b, seg)
  {
    if |a| > 0 {
      assert (a + b)[1..] == a[1..] + b;
      WithoutAppend(a[1..], b, seg);
    } else {
      assert a + b == b;
    }
  }

  /** The values of `s` that do occur in `seg`, in the order of `s`. */
  function Only<T(==)>(s: seq<T>, seg: seq<T>): (r: seq<T>)
    ensures forall i :: 0 <= i < |r| ==> r[i] in s && r[i] in seg
    ensures forall i :: 0 <= i < |s| && s[i] in seg ==> s[i] in r
    ensures multiset(r) <= multiset(s)
  {
    if |s| == 0 then []
    else
      assert s == [s[0]] + s[1..];
      if s[0] in seg then [s[0]] + Only(s[1..], seg) else Only(s[1..], seg)
  }

  /** Exchanges the values at positions `i` and `j`, touching nothing else. */
  function Swap<T>(s: seq<T>, i: nat, j: nat): (r: seq<T>)
    requires i < |s| && j < |s|
    ensures |r| == |s|
    ensures r[i] == s[j] && r[j] == s[i]
    ensures forall k :: 0 <= k < |s| && k != i && k != j ==> r[k] == s[k]
    ensures multiset(r) == multiset(s)
  {
    s[i := s[j]][j := s[i]]
  }

  /** A sequence whose slice `lo..hi` is `inner` and whose other positions, read in order,
      are `outer` holds the values of `outer` and `inner` together. */
  lemma SliceOutMultiset<T>(s: seq<T>, lo: nat, hi: nat, outer: seq<T>, inner: seq<T>)
    requires lo <= hi <= |s|
    requires s[..lo] + s[hi..] == outer && s[lo..hi] == inner
    ensures multiset(s) == multiset(outer) + multiset(inner)
  {
    assert s == s[..lo] + s[lo..hi] + s[hi..];
  }

  /** Distinctness is the same as every value occurring at most once. */
  lemma {:induction false} DistinctIffSingleCounts<T>(s: seq<T>)
    ensures Distinct(s) <==> forall x :: multiset(s)[x] <= 1
  {
    if |s| > 0 {
      var t := s[1..];
      assert s == [s[0]] + t;
      DistinctIffSingleCounts(t);
      assert forall x :: multiset(s)[x] == multiset(t)[x] + (if x == s[0] then 1 else 0);
      if Distinct(s) {
        forall i, j | 0 <= i < j < |t| ensures t[i] != t[j] {
          assert s[i + 1] != s[j + 1];
        }
      }
      if forall x :: multiset(s)[x] <= 1 {
        assert forall x :: multiset(t)[x] <= 1;
        assert multiset(s)[s[0]] == multiset(t)[s[0]] + 1;
        forall i, j | 0 <= i < j < |s| ensures s[i] != s[j] {
          if i == 0 {
            assert s[j] == t[j - 1];
          } else {
            assert s[i] == t[i - 1] && s[j] == t[j - 1];
          }
        }
      }
    }
  }

  /** A rearrangement of a duplicate-free sequence is duplicate-free. */
  lemma PermutationKeepsDistinct<T>(p: seq<T>, q: seq<T>)
    requires IsPermutationOf(p, q)
    requires Distinct(q)
    ensures Distinct(p)
  {
    DistinctIffSingleCounts(p);
    DistinctIffSingleCounts(q);
  }

  /** A sequence whose multiset fits inside that of a duplicate-free one is duplicate-free. */
  lemma SubMultisetKeepsDistinct<T>(p: seq<T>, q: seq<T>)
    requires multiset(p) <= multiset(q)
    requires Distinct(q)
    ensures Distinct(p)
  {
    DistinctIffSingleCounts(p);
    DistinctIffSingleCounts(q);
    forall x ensures multiset(p)[x] <= 1 {
      assert multiset(p)[x] <= multiset(q)[x];
    }
  }

  /** Two duplicate-free sequences with the same values are permutations of each other. */
  lemma SameValuesSameMultiset<T>(p: seq<T>, q: seq<T>)
    requires Distinct(p) && Distinct(q)
    requires forall x :: x in p <==> x in q
    ensures IsPermutationOf(p, q)
  {
    DistinctIffSingleCounts(p);
    DistinctIffSingleCounts(q);
    forall x ensures multiset(p)[x] == multiset(q)[x] {
      if x in p {
        assert x in multiset(p) && x in multiset(q);
      } else {
        assert x !in multiset(p) && x !in multiset(q);
      }
    }
  }

  /** Splitting by membership in `seg` loses and invents nothing. */
  lemma {:induction false} WithoutOnlySplit<T>(s: seq<T>, seg: seq<T>)
    ensures multiset(Without(s, seg)) + multiset(Only(s, seg)) == multiset(s)
  {
    if |s| > 0 {
      assert s == [s[0]] + s[1..];
      WithoutOnlySplit(s[1..], seg);
    }
  }

  /** When `p2` is a duplicate-free rearrangement of `p1`, the values of `p2` missing from a
      slice of `p1` are exactly what the slice lacks: together they rebuild `p1`'s multiset,
      and there are as many of them as positions outside the slice. */
  lemma RemainderOfSlice<T>(p1: seq<T>, p2: seq<T>, lo: nat, hi: nat)
    requires Distinct(p2) && IsPermutationOf(p1, p2)
    requires lo <= hi <= |p1|
    ensures multiset(Without(p2, p1[lo..hi])) + multiset(p1[lo..hi]) == multiset(p1)
    ensures |Without(p2, p1[lo..hi])| == |p1| - (hi - lo)
  {
    var seg := p1[lo..hi];
    PermutationKeepsDistinct(p1, p2);
    assert p1 == p1[..lo] + seg + p1[hi..];
    assert multiset(p1) == multiset(p1[..lo]) + multiset(seg) + multiset(p1[hi..]);
    SubMultisetKeepsDistinct(seg, p1);
    var only := Only(p2, seg);
    SubMultisetKeepsDistinct(only, p2);
    forall x ensures x in only <==> x in seg {
      if x in seg {
        assert x in multiset(p1);
      }
    }
    SameValuesSameMultiset(only, seg);
    WithoutOnlySplit(p2, seg);
    assert |multiset(Without(p2, seg))| + |multiset(seg)| == |multiset(p1)|;
  }
}

=== FILE: solver.dfy ===
/** The search loop of the `ga` package: tournament selection, breeding of child pairs by
    crossover and mutation, the generation step that refills and trims the population, and the
    tracking of the best individual and of the best value of every generation. The loop is
    generic in the individual's value `cost`, which it minimises; every random draw is an
    explicit argument. */
module Solver {
  import opened Perms
  import opened Chromosome
  import opened Operators

  /** The default tournament size `k`. */
  const TournamentSize: nat := 3

  // ---------------------------------------------------------------------------------------
  // Minimum with Python's tie rule

  /** The scan of `min(..., key=...)` from position `i` on: the current best position moves
      only to a strictly smaller value, so ties go to the earliest position. */
  function ArgMinFrom(vals: seq<real>, best: nat, i: nat): (w: nat)
    requires best < i <= |vals|
    requires forall k :: 0 <= k < i ==> vals[best] <= vals[k]
    requires forall k :: 0 <= k < best ==> vals[k] > vals[best]
    ensures w < |vals|
    ensures forall k :: 0 <= k < |vals| ==> vals[w] <= vals[k]
    ensures forall k :: 0 <= k < w ==> vals[k] > vals[w]
    decreases |vals| - i
  {
    if i == |vals| then best
    else ArgMinFrom(vals, if vals[i] < vals[best] then i else best, i + 1)
  }

  /** The position `min` picks: a smallest value, and the first one among equals. */
  function ArgMin(vals: seq<real>): (w: nat)
    requires |vals| > 0
    ensures w < |vals|
    ensures forall k :: 0 <= k < |vals| ==> vals[w] <= vals[k]
    ensures forall k :: 0 <= k < w ==> vals[k] > vals[w]
  {
    ArgMinFrom(vals, 0, 1)
  }

  /** The value of every individual, in population order (the `fitnesses` list). */
  function Costs<T>(pop: seq<T>, cost: T -> real): (vals: seq<real>)
    ensures |vals| == |pop|
    ensures forall i :: 0 <= i < |pop| ==> vals[i] == cost(pop[i])
  {
    if |pop| == 0 then [] else [cost(pop[0])] + Costs(pop[1..], cost)
  }

  // ---------------------------------------------------------------------------------------
  // Tournament selection

  /** The positions `random.sample` draws for a tournament of size `k` from a population of
      `size`: `k` distinct positions, in drawing order. */
  predicate ValidPicks(picks: seq<nat>, k: nat, size: nat) {
    && |picks| == k
    && Distinct(picks)
    && forall t :: 0 <= t < |picks| ==> picks[t] < size
  }

  /** A tournament can only be drawn when it is no larger than the population: `k` distinct
      positions below `size` need `k <= size`. */
  lemma PicksFitPopulation(picks: seq<nat>, k: nat, size: nat)
    requires ValidPicks(picks, k, size)
    ensures k <= size
  {
    DistinctBelow(picks, size);
  }

  /** Distinct naturals below `size` are at most `size` many. */
  lemma {:induction false} DistinctBelow(picks: seq<nat>, size: nat)
    requires Distinct(picks)
    requires forall t :: 0 <= t < |picks| ==> picks[t] < size
    ensures |picks| <= size
    decreases size
  {
    if |picks| > 0 {
      assert picks[0] < size;
      var top: nat := size - 1;
      if k :| 0 <= k < |picks| && picks[k] == top {
        var rest := picks[..k] + picks[k + 1..];
        assert forall t :: 0 <= t < |rest| ==> rest[t] == picks[if t < k then t else t + 1];
        DistinctBelow(rest, top);
      } else {
        DistinctBelow(picks, top);
      }
    }
  }

  /** The population position of the tournament winner: among the drawn positions, one with
      the smallest value, and among equal values the one drawn first. */
  function Tournament(costs: seq<real>, picks: seq<nat>): (i: nat)
    requires |picks| >= 1 && ValidPicks(picks, |picks|, |costs|)
    ensures i < |costs| && i in picks
    ensures forall t :: 0 <= t < |picks| ==> costs[i] <= costs[picks[t]]
    ensures forall s, t :: 0 <= s < t < |picks| && picks[t] == i ==> costs[picks[s]] > costs[i]
  {
    var drawn := seq(|picks|, t requires 0 <= t < |picks| => costs[picks[t]]);
    var w := ArgMin(drawn);
    assert forall t :: 0 <= t < |picks| ==> drawn[t] == costs[picks[t]];
    assert forall t :: 0 <= t < |picks| && picks[t] == picks[w] ==> t == w;
    picks[w]
  }

  // ---------------------------------------------------------------------------------------
  // Breeding

  /** The draws one iteration of the breeding loop consumes: the two tournaments, the
      crossover coin `u`, the cut points of the two crossovers (used only when `u < pc`), and
      the two mutations' draws. */
  datatype BreedDraw = BreedDraw(
    sel1: seq<nat>, sel2: seq<nat>,
    u: real,
    a1: nat, b1: nat, a2: nat, b2: nat,
    mut1: seq<SwapDraw>, mut2: seq<SwapDraw>)

  predicate ValidBreedDraw(d: BreedDraw, popSize: nat, n: nat, pc: real, pm: real) {
    && ValidPicks(d.sel1, TournamentSize, popSize)
    && ValidPicks(d.sel2, TournamentSize, popSize)
    && 0.0 <= d.u < 1.0
    && (d.u < pc ==> d.a1 < d.b1 < n && d.a2 < d.b2 < n)
    && ValidSwapDraws(d.mut1, n, pm)
    && ValidSwapDraws(d.mut2, n, pm)
  }

  /** Every individual is a rearrangement of the customer keys. */
  predicate AllPermutations<K(==)>(pop: seq<seq<K>>, keys: seq<K>) {
    forall i :: 0 <= i < |pop| ==> IsPermutationOf(pop[i], keys)
  }

  /** The two children before mutation: two crossovers when `u < pc`, else copies of the
      parents. */
  function Recombine<K(==)>(p1: seq<K>, p2: seq<K>, keys: seq<K>, d: BreedDraw, pc: real): (c: (seq<K>, seq<K>))
    requires Distinct(keys) && IsPermutationOf(p1, keys) && IsPermutationOf(p2, keys)
    requires d.u < pc ==> d.a1 < d.b1 < |keys| && d.a2 < d.b2 < |keys|
    ensures IsPermutationOf(c.0, keys) && IsPermutationOf(c.1, keys)
    ensures d.u >= pc ==> c == (p1, p2)
    ensures (RecombineDefined(p1, p2, keys, d, pc);
      d.u < pc ==> c == (Crossover(p1, p2, d.a1, d.b1), Crossover(p2, p1, d.a2, d.b2)))
  {
    assert |p1| == |multiset(p1)| == |keys| == |multiset(p2)| == |p2|;
    PermutationKeepsDistinct(p1, keys);
    PermutationKeepsDistinct(p2, keys);
    if d.u < pc then
      CrossoverPermutation(p1, p2, d.a1, d.b1);
      CrossoverPermutation(p2, p1, d.a2, d.b2);
      (Crossover(p1, p2, d.a1, d.b1), Crossover(p2, p1, d.a2, d.b2))
    else
      (p1, p2)
  }

  /** When crossover happens, both orders of the parents can be crossed: each parent is a
      duplicate-free permutation of the other, so each crossover finds its fill genes. */
  lemma RecombineDefined<K>(p1: seq<K>, p2: seq<K>, keys: seq<K>, d: BreedDraw, pc: real)
    requires Distinct(keys) && IsPermutationOf(p1, keys) && IsPermutationOf(p2, keys)
    requires d.u < pc ==> d.a1 < d.b1 < |keys| && d.a2 < d.b2 < |keys|
    ensures d.u < pc ==> CrossoverDefined(p1, p2, d.a1, d.b1) && CrossoverDefined(p2, p1, d.a2, d.b2)
  {
    if d.u < pc {
      assert |p1| == |multiset(p1)| == |keys| == |multiset(p2)| == |p2|;
      PermutationKeepsDistinct(p1, keys);
      PermutationKeepsDistinct(p2, keys);
      CrossoverUsesAllRemaining(p1, p2, d.a1, d.b1);
      CrossoverUsesAllRemaining(p2, p1, d.a2, d.b2);
    }
  }

  /** One iteration of the breeding loop: two tournament winners, recombined and mutated.
      Children of duplicate-free permutations are duplicate-free permutations, and without
      crossover or mutation they are copies of the two winners. The membership clause follows
      from that equality; it is kept in the form `Offspring` uses. */
  function Breed<K(==)>(pop: seq<seq<K>>, keys: seq<K>, cost: seq<K> -> real, d: BreedDraw, pc: real, pm: real): (children: (seq<K>, seq<K>))
    requires Distinct(keys) && AllPermutations(pop, keys)
    requires ValidBreedDraw(d, |pop|, |keys|, pc, pm)
    ensures IsPermutationOf(children.0, keys) && IsPermutationOf(children.1, keys)
    ensures Distinct(children.0) && Distinct(children.1)
    ensures pc <= 0.0 && pm <= 0.0 ==> children.0 in pop && children.1 in pop
    ensures pc <= 0.0 && pm <= 0.0 ==>
      children == (pop[Tournament(Costs(pop, cost), d.sel1)], pop[Tournament(Costs(pop, cost), d.sel2)])
  {
    var costs := Costs(pop, cost);
    var p1 := pop[Tournament(costs, d.sel1)];
    var p2 := pop[Tournament(costs, d.sel2)];
    var c := Recombine(p1, p2, keys, d, pc);
    assert |c.0| == |multiset(c.0)| == |keys| == |multiset(c.1)| == |c.1|;
    MutateKeepsPermutation(c.0, keys, pm, d.mut1);
    MutateKeepsPermutation(c.1, keys, pm, d.mut2);
    (Mutate(c.0, pm, d.mut1), Mutate(c.1, pm, d.mut2))
  }

  predicate AllValidDraws(draws: seq<BreedDraw>, popSize: nat, n: nat, pc: real, pm: real) {
    forall t :: 0 <= t < |draws| ==> ValidBreedDraw(draws[t], popSize, n, pc, pm)
  }

  /** Every member of `kids` is a member of `pop`. */
  predicate AllIn<K(==)>(kids: seq<seq<K>>, pop: seq<seq<K>>) {
    forall i :: 0 <= i < |kids| ==> kids[i] in pop
  }

  /** The children of the breeding loop, two per iteration, in the order they are appended. */
  function Offspring<K(==)>(pop: seq<seq<K>>, keys: seq<K>, cost: seq<K> -> real, draws: seq<BreedDraw>, pc: real, pm: real): (kids: seq<seq<K>>)
    requires Distinct(keys) && AllPermutations(pop, keys)
    requires AllValidDraws(draws, |pop|, |keys|, pc, pm)
    ensures |kids| == 2 * |draws|
    ensures AllPermutations(kids, keys)
    ensures pc <= 0.0 && pm <= 0.0 ==> AllIn(kids, pop)
  {
    if |draws| == 0 then []
    else
      assert ValidBreedDraw(draws[0], |pop|, |keys|, pc, pm);
      assert AllValidDraws(draws[1..], |pop|, |keys|, pc, pm);
      var c := Breed(pop, keys, cost, draws[0], pc, pm);
      var rest := Offspring(pop, keys, cost, draws[1..], pc, pm);
      PairThenRest(c.0, c.1, rest, keys, pop);
      [c.0, c.1] + rest
  }

  /** Putting a pair in front of a list keeps every member a permutation of the keys, and
      keeps every member drawn from `pop` when the pair is. */
  lemma PairThenRest<K>(a: seq<K>, b: seq<K>, rest: seq<seq<K>>, keys: seq<K>, pop: seq<seq<K>>)
    requires IsPermutationOf(a, keys) && IsPermutationOf(b, keys) && AllPermutations(rest, keys)
    ensures AllPermutations([a, b] + rest, keys)
    ensures a in pop && b in pop && AllIn(rest, pop) ==> AllIn([a, b] + rest, pop)
  {
    var kids := [a, b] + rest;
    assert forall i :: 2 <= i < |kids| ==> kids[i] == rest[i - 2];
  }

  /** How many times the loop `while len(new_population) < pop_size` appends a pair when it
      starts from `len` individuals. */
  function PairsNeeded(len: nat, popSize: nat): nat
    decreases popSize - len
  {
    if len >= popSize then 0 else 1 + PairsNeeded(len + 2, popSize)
  }

  /** Starting from `len <= pop_size` individuals, the loop appends half the shortfall,
      rounded up. */
  lemma {:induction false} PairsNeededCeil(len: nat, popSize: nat)
    requires len <= popSize
    ensures PairsNeeded(len, popSize) == (popSize - len + 1) / 2
    decreases popSize - len
  {
    if len < popSize {
      if len + 2 <= popSize {
        PairsNeededCeil(len + 2, popSize);
      } else {
        assert PairsNeeded(len + 2, popSize) == 0;
      }
    }
  }

  /** The loop count from an empty list. */
  lemma PairsFromEmpty(popSize: nat)
    ensures PairsNeeded(0, popSize) == (popSize + 1) / 2
    ensures 2 * PairsNeeded(0, popSize) >= popSize
    ensures PairsNeeded(0, popSize) > 0 ==> 2 * (PairsNeeded(0, popSize) - 1) < popSize
  {
    PairsNeededCeil(0, popSize);
  }

  /** One generation: breed pairs until there are at least `pop_size` children, then keep
      the first `pop_size`. The population keeps its size and stays a population of
      duplicate-free permutations of the keys. */
  function Generation<K(==)>(pop: seq<seq<K>>, keys: seq<K>, cost: seq<K> -> real, draws: seq<BreedDraw>, pc: real, pm: real): (next: seq<seq<K>>)
    requires Distinct(keys) && AllPermutations(pop, keys)
    requires |draws| == PairsNeeded(0, |pop|)
    requires AllValidDraws(draws, |pop|, |keys|, pc, pm)
    ensures |next| == |pop|
    ensures AllPermutations(next, keys)
    ensures pc <= 0.0 && pm <= 0.0 ==> AllIn(next, pop)
  {
    PairsFromEmpty(|pop|);
    Offspring(pop, keys, cost, draws, pc, pm)[..|pop|]
  }

  // ---------------------------------------------------------------------------------------
  // The run

  /** The draws of every generation are valid for a population of `popSize`. */
  predicate GensValid(gens: seq<seq<BreedDraw>>, popSize: nat, n: nat, pc: real, pm: real) {
    forall g :: 0 <= g < |gens| ==>
      |gens[g]| == PairsNeeded(0, popSize) && AllValidDraws(gens[g], popSize, n, pc, pm)
  }

  /** The populations of the first `g` generations of a run: `init`, then each generation
      applied to the population before it. */
  function Trajectory<K(==)>(init: seq<seq<K>>, keys: seq<K>, cost: seq<K> -> real, gens: seq<seq<BreedDraw>>, pc: real, pm: real, g: nat): (pops: seq<seq<seq<K>>>)
    requires Distinct(keys) && AllPermutations(init, keys)
    requires GensValid(gens, |init|, |keys|, pc, pm) && g <= |gens|
    ensures |pops| == g + 1 && pops[0] == init
    ensures forall j :: 0 <= j <= g ==> |pops[j]| == |init| && AllPermutations(pops[j], keys)
  {
    if g == 0 then [init]
    else
      var t := Trajectory(init, keys, cost, gens, pc, pm, g - 1);
      var pops := t + [Generation(t[g - 1], keys, cost, gens[g - 1], pc, pm)];
      assert forall j :: 0 <= j < g ==> pops[j] == t[j];
      pops
  }

  /** The initial population: one `create_individual` per draw sequence. */
  function Initial<K(==)>(keys: seq<K>, picks: seq<seq<nat>>): (pop: seq<seq<K>>)
    requires forall i :: 0 <= i < |picks| ==> ValidSampleDraws(picks[i], |keys|)
    ensures |pop| == |picks|
    ensures AllPermutations(pop, keys)
  {
    seq(|picks|, i requires 0 <= i < |picks| => CreateIndividual(keys, picks[i]))
  }

  /** `x` is no larger than any of `vals`. */
  predicate IsLowerBound(x: real, vals: seq<real>) {
    forall k :: 0 <= k < |vals| ==> x <= vals[k]
  }

  /** `x` is the smallest of `vals`. */
  predicate IsMinimum(x: real, vals: seq<real>) {
    x in vals && IsLowerBound(x, vals)
  }

  /** `pops` has one more population than `history` has entries, and entry `h` is the smallest
      value in population `h + 1`. */
  predicate MinimaOf<K>(history: seq<real>, pops: seq<seq<seq<K>>>, cost: seq<K> -> real) {
    && |pops| == |history| + 1
    && forall h :: 0 <= h < |history| ==> IsMinimum(history[h], Costs(pops[h + 1], cost))
  }

  /** Recording the minimum of a new population extends the list of minima. */
  lemma MinimaAppend<K>(history: seq<real>, pops: seq<seq<seq<K>>>, cost: seq<K> -> real, pop: seq<seq<K>>, x: real)
    requires MinimaOf(history, pops, cost)
    requires IsMinimum(x, Costs(pop, cost))
    ensures MinimaOf(history + [x], pops + [pop], cost)
  {
    var next, nextPops := history + [x], pops + [pop];
    forall h | 0 <= h < |next| ensures IsMinimum(next[h], Costs(nextPops[h + 1], cost)) {
      if h < |history| {
        assert next[h] == history[h] && nextPops[h + 1] == pops[h + 1];
      } else {
        assert next[h] == x && nextPops[h + 1] == pop;
      }
    }
  }

  /** The best value seen so far: a lower bound of the initial values and of the history, and
      one of them. */
  predicate IsBestSoFar(b: real, initial: seq<real>, history: seq<real>) {
    && IsLowerBound(b, initial)
    && IsLowerBound(b, history)
    && (b in initial || b in history)
  }

  /** Replacing the best value by a new generation's minimum exactly when that is strictly
      smaller keeps it the best value seen so far. */
  lemma BestStep(b: real, initial: seq<real>, history: seq<real>, x: real, vals: seq<real>)
    requires IsBestSoFar(b, initial, history) && IsMinimum(x, vals)
    ensures IsBestSoFar(if x < b then x else b, initial, history + [x])
    ensures (if x < b then x else b) <= b
  {
    var next := history + [x];
    assert forall k :: 0 <= k < |history| ==> next[k] == history[k];
    assert next[|history|] == x;
  }

  /** The smallest value of a population, with the position `min` picks, is its minimum. */
  lemma ArgMinIsMinimum(vals: seq<real>)
    requires |vals| > 0
    ensures IsMinimum(vals[ArgMin(vals)], vals)
  {
  }

  /** The tie rule of the best individual: it is the one `min` picks (the first of smallest
      value) in population `found`, and every population before `found` has only strictly
      larger values. So among equally good individuals, the earliest one seen is kept. */
  ghost predicate FirstBest<K>(bestInd: seq<K>, bestCost: real, found: nat, pops: seq<seq<seq<K>>>,
                               history: seq<real>, initCosts: seq<real>, cost: seq<K> -> real)
  {
    && found < |pops|
    && |pops[found]| > 0
    && bestInd == pops[found][ArgMin(Costs(pops[found], cost))]
    && (found > 0 ==> forall k :: 0 <= k < |initCosts| ==> initCosts[k] > bestCost)
    && (forall h :: 0 <= h < found - 1 && h < |history| ==> history[h] > bestCost)
  }

  /** The strict update `if gen_best[1] < best_ind[1]` keeps the earliest best individual. */
  lemma FirstBestStep<K>(bestInd: seq<K>, bestCost: real, found: nat, pops: seq<seq<seq<K>>>,
                         history: seq<real>, initCosts: seq<real>, cost: seq<K> -> real, pop: seq<seq<K>>)
    requires FirstBest(bestInd, bestCost, found, pops, history, initCosts, cost)
    requires IsBestSoFar(bestCost, initCosts, history)
    requires |pops| == |history| + 1 && |pop| > 0
    ensures var w := ArgMin(Costs(pop, cost));
      var x := Costs(pop, cost)[w];
      FirstBest(if x < bestCost then pop[w] else bestInd, if x < bestCost then x else bestCost,
                if x < bestCost then |pops| else found, pops + [pop], history + [x], initCosts, cost)
  {
    var w := ArgMin(Costs(pop, cost));
    var x := Costs(pop, cost)[w];
    var next := history + [x];
    if x < bestCost {
      assert (pops + [pop])[|pops|] == pop;
      forall h | 0 <= h < |pops| - 1 && h < |next| ensures next[h] > x {
        assert next[h] == history[h];
      }
    } else {
      assert (pops + [pop])[found] == pops[found];
      forall h | 0 <= h < found - 1 && h < |next| ensures next[h] > bestCost {
        assert next[h] == history[h];
      }
    }
  }

  /** `solve_ga`: entry `g` of the history is the smallest value in the population after
      generation `g`; the returned individual is a permutation of the keys whose value is the
      returned cost, no larger than any value of the initial population or any history entry,
      and taken from one of them; the routes are its decoding. The individual is a member of
      population `found` of the run, the initial one or one a generation produced: the first
      of smallest value in the earliest population that reaches the best value. */
  method SolveGa<K(==)>(keys: seq<K>, popSize: nat, initPicks: seq<seq<nat>>, gens: seq<seq<BreedDraw>>,
                        v: nat, pc: real, pm: real, cost: seq<K> -> real)
    returns (bestInd: seq<K>, bestCost: real, bestRoutes: seq<seq<K>>, history: seq<real>, ghost found: nat)
    requires Distinct(keys) && popSize >= 1 && v >= 1
    requires |initPicks| == popSize
    requires forall i :: 0 <= i < popSize ==> ValidSampleDraws(initPicks[i], |keys|)
    requires GensValid(gens, popSize, |keys|, pc, pm)
    ensures |history| == |gens|
    ensures MinimaOf(history, Trajectory(Initial(keys, initPicks), keys, cost, gens, pc, pm, |gens|), cost)
    ensures bestCost == cost(bestInd)
    ensures IsPermutationOf(bestInd, keys)
    ensures bestRoutes == DecodeRoutes(bestInd, v)
    ensures IsBestSoFar(bestCost, Costs(Initial(keys, initPicks), cost), history)
    ensures found <= |gens| && bestInd in Trajectory(Initial(keys, initPicks), keys, cost, gens, pc, pm, |gens|)[found]
    ensures FirstBest(bestInd, bestCost, found, Trajectory(Initial(keys, initPicks), keys, cost, gens, pc, pm, |gens|),
                      history, Costs(Initial(keys, initPicks), cost), cost)
  {
    var init := Initial(keys, initPicks);
    var pop := init;
    ghost var pops := [init];
    var costs := Costs(pop, cost);
    var w := ArgMin(costs);
    bestInd, bestCost := pop[w], costs[w];
    found := 0;
    history := [];
    ArgMinIsMinimum(costs);
    var g := 0;
    while g < |gens|
      invariant 0 <= g <= |gens|
      invariant pops == Trajectory(init, keys, cost, gens, pc, pm, g)
      invariant pop == pops[g]
      invariant MinimaOf(history, pops, cost)
      invariant bestCost == cost(bestInd)
      invariant IsPermutationOf(bestInd, keys)
      invariant IsBestSoFar(bestCost, Costs(init, cost), history)
      invariant found <= g && bestInd in pops[found]
      invariant FirstBest(bestInd, bestCost, found, pops, history, Costs(init, cost), cost)
    {
      pop := Generation(pop, keys, cost, gens[g], pc, pm);
      costs := Costs(pop, cost);
      var gw := ArgMin(costs);
      ArgMinIsMinimum(costs);
      MinimaAppend(history, pops, cost, pop, costs[gw]);
      BestStep(bestCost, Costs(init, cost), history, costs[gw], costs);
      assert (pops + [pop])[found] == pops[found];
      ghost var b0, c0, f0, h0, p0 := bestInd, bestCost, found, history, pops;
      pops := pops + [pop];
      if costs[gw] < bestCost {
        bestInd, bestCost := pop[gw], costs[gw];
        found := g + 1;
      }
      history := history + [costs[gw]];
      FirstBestStep(b0, c0, f0, p0, h0, Costs(init, cost), cost, pop);
      g := g + 1;
    }
    bestRoutes := DecodeRoutes(bestInd, v);
  }
}

=== FILE: utils.dfy ===
/** Instance preparation: the customers in ascending identifier order, and the distance matrix
    with the depot at index 0 and the `i`-th customer of that order at index `i + 1`. */
module Utils {
  import opened Perms
  import opened Fitness

  /** A location in the plane. */
  datatype Point = Point(x: real, y: real)

  /** A Python dict seen as its entries in insertion order; its keys are distinct. */
  type Entries<V> = seq<(int, V)>

  function KeysOf<V>(d: Entries<V>): (keys: seq<int>)
    ensures |keys| == |d|
    ensures forall i :: 0 <= i < |d| ==> keys[i] == d[i].0
  {
    if |d| == 0 then [] else [d[0].0] + KeysOf(d[1..])
  }

  predicate IsDict<V>(d: Entries<V>) {
    Distinct(KeysOf(d))
  }

  /** `d[k]`: the value stored under key `k`. */
  function Lookup<V>(d: Entries<V>, k: int): (v: V)
    requires k in KeysOf(d)
    ensures (k, v) in d
  {
    if d[0].0 == k then d[0].1 else Lookup(d[1..], k)
  }

  predicate StrictlyAscending(s: seq<int>) {
    forall i, j :: 0 <= i < j < |s| ==> s[i] < s[j]
  }

  /** Puts `x` into its place in an ascending sequence that lacks it. */
  function Insert(x: int, s: seq<int>): (r: seq<int>)
    requires StrictlyAscending(s) && x !in s
    ensures StrictlyAscending(r)
    ensures multiset(r) == multiset(s) + multiset{x}
    ensures forall i :: 0 <= i < |r| ==> r[i] == x || r[i] in s
  {
    if |s| == 0 then [x]
    else if x < s[0] then [x] + s
    else
      var rest := Insert(x, s[1..]);
      InsertBehindHead(x, s, rest);
      [s[0]] + rest
  }

  /** When `x` goes after the head, keeping the head in front of the rest with `x` inserted
      gives the insertion into the whole. */
  lemma InsertBehindHead(x: int, s: seq<int>, rest: seq<int>)
    requires StrictlyAscending(s) && |s| > 0 && s[0] < x
    requires StrictlyAscending(rest)
    requires multiset(rest) == multiset(s[1..]) + multiset{x}
    requires forall i :: 0 <= i < |rest| ==> rest[i] == x || rest[i] in s[1..]
    ensures StrictlyAscending([s[0]] + rest)
    ensures multiset([s[0]] + rest) == multiset(s) + multiset{x}
    ensures forall i :: 0 <= i < |[s[0]] + rest| ==> ([s[0]] + rest)[i] == x || ([s[0]] + rest)[i] in s
  {
    var r := [s[0]] + rest;
    HeadIsLeast(s);
    assert forall i :: 0 <= i < |rest| ==> s[0] < rest[i];
    assert s == [s[0]] + s[1..];
    forall i | 0 < i < |r| ensures r[i] == x || r[i] in s {
      assert r[i] == rest[i - 1];
    }
  }

  /** `sorted(keys)` for distinct keys: the same keys in strictly ascending order. */
  function SortKeys(keys: seq<int>): (r: seq<int>)
    requires Distinct(keys)
    ensures StrictlyAscending(r)
    ensures IsPermutationOf(r, keys)
  {
    if |keys| == 0 then []
    else
      assert keys == [keys[0]] + keys[1..];
      var rest := SortKeys(keys[1..]);
      assert keys[0] !in multiset(rest);
      Insert(keys[0], rest)
  }

  /** In a strictly ascending sequence every later value exceeds the first. */
  lemma HeadIsLeast(s: seq<int>)
    requires StrictlyAscending(s) && |s| > 0
    ensures forall x :: x in s[1..] ==> x > s[0]
  {
    forall x | x in s[1..] ensures x > s[0] {
      var k :| 0 <= k < |s[1..]| && s[1..][k] == x;
      assert s[k + 1] == x;
    }
  }

  /** There is only one strictly ascending listing of a set of keys. */
  lemma {:induction false} AscendingUnique(a: seq<int>, b: seq<int>)
    requires StrictlyAscending(a) && StrictlyAscending(b)
    requires forall x :: x in a <==> x in b
    ensures a == b
  {
    SameValuesBothEmpty(a, b);
    if |a| > 0 {
      assert a[0] in a;
      assert |b| > 0 && b[0] in b;
      assert b[0] in a;
      assert a[0] == b[0];
      HeadIsLeast(a);
      HeadIsLeast(b);
      forall x ensures x in a[1..] <==> x in b[1..] {
        assert x in a <==> x == a[0] || x in a[1..] by { assert a == [a[0]] + a[1..]; }
        assert x in b <==> x == b[0] || x in b[1..] by { assert b == [b[0]] + b[1..]; }
      }
      AscendingUnique(a[1..], b[1..]);
      assert a == [a[0]] + a[1..] && b == [b[0]] + b[1..];
    }
  }

  /** Sequences with the same values are both empty or both not. */
  lemma SameValuesBothEmpty(a: seq<int>, b: seq<int>)
    requires forall x :: x in a <==> x in b
    ensures |a| == 0 <==> |b| == 0
  {
    if |a| > 0 {
      var x := a[0];
      assert x in a;
    }
    if |b| > 0 {
      var y := b[0];
      assert y in b;
    }
  }

  /** `customers_to_ordered_list`: the keys of the dict in strictly ascending order, and the
      customer stored under each of them, position by position. */
  function OrderedCustomers<V>(d: Entries<V>): (r: (seq<int>, seq<V>))
    requires IsDict(d)
    ensures StrictlyAscending(r.0)
    ensures IsPermutationOf(r.0, KeysOf(d))
    ensures |r.1| == |r.0| == |d|
    ensures forall i :: 0 <= i < |r.0| ==> (r.0[i], r.1[i]) in d
  {
    var keys := SortKeys(KeysOf(d));
    SortedKeysAreKeys(KeysOf(d));
    (keys, seq(|keys|, i requires 0 <= i < |keys| => Lookup(d, keys[i])))
  }

  /** Sorting keeps the number of keys and draws every entry from them. */
  lemma SortedKeysAreKeys(keys: seq<int>)
    requires Distinct(keys)
    ensures |SortKeys(keys)| == |keys|
    ensures forall i :: 0 <= i < |SortKeys(keys)| ==> SortKeys(keys)[i] in keys
  {
    var sorted := SortKeys(keys);
    assert |sorted| == |multiset(sorted)| == |keys|;
    forall i | 0 <= i < |sorted| ensures sorted[i] in keys {
      assert sorted[i] in multiset(keys);
    }
  }

  /** The ascending key order is the only possible one: any strictly ascending listing of the
      dict's keys is the one returned. */
  lemma OrderedCustomersCanonical<V>(d: Entries<V>, keys: seq<int>)
    requires IsDict(d)
    requires StrictlyAscending(keys)
    requires forall x :: x in keys <==> x in KeysOf(d)
    ensures OrderedCustomers(d).0 == keys
  {
    var sorted := OrderedCustomers(d).0;
    forall x ensures x in sorted <==> x in KeysOf(d) {
      assert x in sorted <==> x in multiset(sorted);
    }
    AscendingUnique(sorted, keys);
  }

  /** Squared Euclidean distance, `dx*dx + dy*dy`. */
  function SquaredDistance(p: Point, q: Point): (d: real)
    ensures d >= 0.0
  {
    var dx := p.x - q.x;
    var dy := p.y - q.y;
    assert dx * dx >= 0.0 && dy * dy >= 0.0;
    dx * dx + dy * dy
  }

  /** Swapping the two points negates `dx` and `dy` and so leaves their squares alone. */
  lemma SquaredDistanceSymmetric(p: Point, q: Point)
    ensures SquaredDistance(p, q) == SquaredDistance(q, p)
  {
    assert (p.x - q.x) * (p.x - q.x) == (q.x - p.x) * (q.x - p.x);
    assert (p.y - q.y) * (p.y - q.y) == (q.y - p.y) * (q.y - p.y);
  }

  /** The point behind matrix index `i`: the depot at 0, customer `i - 1` of the list after. */
  function Location(depot: Point, customers: seq<Point>, i: nat): Point
    requires i <= |customers|
  {
    if i == 0 then depot else customers[i - 1]
  }

  /** `distance_matrix`: entry `(i, j)` is `root(dx*dx + dy*dy)` between the points behind
      indices `i` and `j`, and 0 on the diagonal. `root` stands for the square root. */
  function DistanceMatrix(depot: Point, customers: seq<Point>, root: real -> real): (m: Matrix)
    ensures |m| == |customers| + 1
    ensures IsSquare(m) && Symmetric(m)
    ensures forall i :: 0 <= i < |m| ==> m[i][i] == 0.0
    ensures forall i, j :: 0 <= i < |m| && 0 <= j < |m| && i != j ==>
      m[i][j] == root(SquaredDistance(Location(depot, customers, i), Location(depot, customers, j)))
    ensures (forall z :: z >= 0.0 ==> root(z) >= 0.0) ==> NonNegative(m)
  {
    var n := |customers| + 1;
    var m := seq(n, i requires 0 <= i < n => seq(n, j requires 0 <= j < n => Entry(depot, customers, root, i, j)));
    assert forall i, j :: 0 <= i < n && 0 <= j < n ==> m[i][j] == Entry(depot, customers, root, i, j);
    forall i, j | 0 <= i < n && 0 <= j < n ensures m[i][j] == m[j][i] {
      EntrySymmetric(depot, customers, root, i, j);
    }
    m
  }

  /** One entry of the distance matrix. */
  function Entry(depot: Point, customers: seq<Point>, root: real -> real, i: nat, j: nat): real
    requires i <= |customers| && j <= |customers|
  {
    if i == j then 0.0
    else root(SquaredDistance(Location(depot, customers, i), Location(depot, customers, j)))
  }

  lemma EntrySymmetric(depot: Point, customers: seq<Point>, root: real -> real, i: nat, j: nat)
    requires i <= |customers| && j <= |customers|
    ensures Entry(depot, customers, root, i, j) == Entry(depot, customers, root, j, i)
  {
    SquaredDistanceSymmetric(Location(depot, customers, i), Location(depot, customers, j));
  }
}

=== FILE: vrp_ga.dfy ===
/** The stand-alone genetic algorithm of `ga_vrp.py`: order crossover that keeps an exclusive
    segment of the first parent and writes parent2's other genes from the segment's end with
    wrap-around, followed by a safety pass; a mutation that swaps at most one pair; and the
    reciprocal of the total Euclidean tour length as fitness. Customers are integer identifiers,
    and `-1` marks a position of the child that is still empty. */
module VrpGa {
  import opened Perms
  import opened Chromosome
  import opened Fitness
  import opened Utils

  /** The placeholder written into every position of a fresh child. */
  const Unfilled: int := -1

  // ---------------------------------------------------------------------------------------
  // Crossover

  /** `[-1] * n` with `parent1[start:end]` copied in (`end` excluded). */
  function Template(p1: seq<int>, start: nat, end: nat): (t: seq<int>)
    ensures |t| == |p1|
    ensures start <= end <= |p1| ==> t[start..end] == p1[start..end]
    ensures forall i :: 0 <= i < |p1| && (i < start || end <= i) ==> t[i] == Unfilled
  {
    seq(|p1|, i requires 0 <= i < |p1| => if start <= i < end then p1[i] else Unfilled)
  }

  /** The fill loop: for every gene of `p2` in order, a gene that the child does not hold yet
      is written at `ptr`, and `ptr` then advances by one, wrapping round to 0 at the end. */
  function Place(child: seq<int>, ptr: nat, p2: seq<int>): (r: seq<int>)
    requires ptr < |child|
    ensures |r| == |child|
    ensures forall i :: 0 <= i < |r| ==> r[i] == child[i] || r[i] in p2
    decreases |p2|
  {
    if |p2| == 0 then child
    else
      var rest := if p2[0] !in child
        then Place(child[ptr := p2[0]], (ptr + 1) % |child|, p2[1..])
        else Place(child, ptr, p2[1..]);
      assert forall x :: x in p2[1..] ==> x in p2;
      rest
  }

  /** The position of the first gene of `p2` that `child` lacks, or `|p2|` when it lacks none. */
  function FirstMissing(p2: seq<int>, child: seq<int>): (k: nat)
    ensures k <= |p2|
    ensures forall j :: 0 <= j < k ==> p2[j] in child
    ensures k < |p2| ==> p2[k] !in child
  {
    if |p2| == 0 then 0
    else if p2[0] !in child then 0
    else 1 + FirstMissing(p2[1..], child)
  }

  /** The safety pass from position `i` on: each position still holding `-1` receives the
      first gene of `p2` that the child lacks at that moment, if there is one. */
  function Repair(child: seq<int>, p2: seq<int>, i: nat): (r: seq<int>)
    requires i <= |child|
    ensures |r| == |child|
    ensures forall j :: 0 <= j < |child| && (j < i || child[j] != Unfilled) ==> r[j] == child[j]
    ensures forall j :: 0 <= j < |child| ==> r[j] == child[j] || r[j] in p2
    decreases |child| - i
  {
    if i == |child| then child
    else if child[i] == Unfilled then
      var k := FirstMissing(p2, child);
      Repair(if k < |p2| then child[i := p2[k]] else child, p2, i + 1)
    else Repair(child, p2, i + 1)
  }

  /** The child after the fill loop, before the safety pass. */
  function PlaceStage(p1: seq<int>, p2: seq<int>, start: nat, end: nat): (r: seq<int>)
    requires start < end < |p1|
    ensures |r| == |p1|
  {
    Place(Template(p1, start, end), end, p2)
  }

  /** Crossover with the cut points `start < end`, the sorted pair of distinct positions the
      source draws. Whatever the parents, the child has their length and holds only `-1`, genes
      of the copied segment and genes of parent2. */
  function WrapCrossover(p1: seq<int>, p2: seq<int>, start: nat, end: nat): (child: seq<int>)
    requires start < end < |p1|
    ensures |child| == |p1|
    ensures forall i :: 0 <= i < |child| ==>
      child[i] == Unfilled || child[i] in p1[start..end] || child[i] in p2
  {
    var placed := PlaceStage(p1, p2, start, end);
    var t := Template(p1, start, end);
    assert forall i :: 0 <= i < |t| ==> t[i] == Unfilled || t[i] in p1[start..end] by {
      forall i | 0 <= i < |t| && start <= i < end ensures t[i] in p1[start..end] {
        assert t[i] == p1[start..end][i - start];
      }
    }
    Repair(placed, p2, 0)
  }

  /** What the source relies on for a well-formed child: parent2 is a duplicate-free
      rearrangement of parent1, which does not contain the placeholder. */
  predicate WellFormedParents(p1: seq<int>, p2: seq<int>, start: nat, end: nat) {
    && start < end < |p1|
    && Distinct(p2)
    && IsPermutationOf(p1, p2)
    && Unfilled !in p1
  }

  /** How many positions after the segment's end (counting round the end of the list)
      position `i` lies. */
  function Offset(i: int, n: int, end: int): int {
    if i >= end then i - end else i + n - end
  }

  /** The fill pointer after `m` genes were written. */
  function Pointer(m: nat, n: nat, end: nat): nat
    requires end < n && m <= n
  {
    if end + m < n then end + m else end + m - n
  }

  /** The child when the first `m` remaining genes `items` were written: the segment from
      parent1, the `m` positions following the segment (round the end) filled from `items`,
      the rest still `-1`. */
  function Partial(p1: seq<int>, items: seq<int>, start: nat, end: nat, m: nat): seq<int>
    requires start < end <= |p1| && m <= |items|
  {
    seq(|p1|, i requires 0 <= i < |p1| =>
      if start <= i < end then p1[i]
      else if Offset(i, |p1|, end) < m then items[Offset(i, |p1|, end)]
      else Unfilled)
  }

  /** The pointer after `m` writes is the one position outside the segment whose offset is
      `m`. */
  lemma PointerPosition(n: nat, start: nat, end: nat, m: nat)
    requires start < end < n && m < n - (end - start)
    ensures Pointer(m, n, end) < n
    ensures !(start <= Pointer(m, n, end) < end) && Offset(Pointer(m, n, end), n, end) == m
    ensures forall i :: 0 <= i < n && !(start <= i < end) && Offset(i, n, end) == m ==> i == Pointer(m, n, end)
  {
  }

  /** The pointer update `(pointer + 1) % n` of the source moves to the next offset. */
  lemma PointerAdvance(n: nat, start: nat, end: nat, m: nat)
    requires start < end < n && m < n - (end - start)
    ensures Pointer(m, n, end) < n
    ensures (Pointer(m, n, end) + 1) % n == Pointer(m + 1, n, end)
  {
    var ptr := Pointer(m, n, end);
    if ptr + 1 < n {
      WrapBelow(ptr + 1, n);
    } else {
      WrapAt(n);
    }
  }

  /** `(ptr + 1) % len(child)` leaves a pointer below the length unchanged. */
  lemma WrapBelow(x: nat, n: nat)
    requires x < n
    ensures x % n == x
  {
  }

  /** `(ptr + 1) % len(child)` wraps a pointer that reaches the length round to 0. */
  lemma WrapAt(n: nat)
    requires n > 0
    ensures n % n == 0
  {
  }

  /** Writing gene `m` at the pointer extends the partial child by one. */
  lemma PartialStep(p1: seq<int>, items: seq<int>, start: nat, end: nat, m: nat)
    requires start < end < |p1| && m < |items| && m < |p1| - (end - start)
    ensures Pointer(m, |p1|, end) < |p1|
    ensures Partial(p1, items, start, end, m)[Pointer(m, |p1|, end) := items[m]]
         == Partial(p1, items, start, end, m + 1)
  {
    var n := |p1|;
    PointerPosition(n, start, end, m);
    var ptr := Pointer(m, n, end);
    var before := Partial(p1, items, start, end, m)[ptr := items[m]];
    var after := Partial(p1, items, start, end, m + 1);
    forall i | 0 <= i < n ensures before[i] == after[i] {
    }
    assert before == after;
  }

  /** Before the fill reaches gene `t` of parent2, the placed genes are exactly the
      remaining genes among `p2[..t]`. */
  lemma WithoutPrefix(p2: seq<int>, seg: seq<int>, t: nat)
    requires t <= |p2|
    ensures Without(p2, seg) == Without(p2[..t], seg) + Without(p2[t..], seg)
  {
    assert p2 == p2[..t] + p2[t..];
    WithoutAppend(p2[..t], p2[t..], seg);
  }

  /** The genes written before gene `t` plus, when it is not in the segment, gene `t`. */
  lemma WithoutStep(p2: seq<int>, seg: seq<int>, t: nat)
    requires t < |p2|
    ensures Without(p2[..t + 1], seg) == Without(p2[..t], seg) + (if p2[t] in seg then [] else [p2[t]])
  {
    assert p2[..t + 1] == p2[..t] + [p2[t]];
    WithoutAppend(p2[..t], [p2[t]], seg);
  }

  /** Gene `t` of parent2 is already in the partial child exactly when it is in the segment:
      it cannot be one of the genes written so far, which all come earlier in parent2. */
  lemma PartialMembership(p1: seq<int>, p2: seq<int>, start: nat, end: nat, t: nat)
    requires WellFormedParents(p1, p2, start, end) && t < |p2|
    ensures |Without(p2[..t], p1[start..end])| <= |Without(p2, p1[start..end])|
    ensures var items := Without(p2, p1[start..end]);
      var m := |Without(p2[..t], p1[start..end])|;
      p2[t] in Partial(p1, items, start, end, m) <==> p2[t] in p1[start..end]
  {
    var items := Without(p2, p1[start..end]);
    var done := Without(p2[..t], p1[start..end]);
    WithoutPrefix(p2, p1[start..end], t);
    var m := |done|;
    assert items[..m] == done;
    var x := p2[t];
    FreshGene(p1, p2, t);
    SegmentInPartial(p1, items, start, end, m, x);
    PartialValues(p1, items, start, end, m, x);
  }

  /** Gene `t` of parent2 is not the placeholder and does not occur earlier in parent2. */
  lemma FreshGene(p1: seq<int>, p2: seq<int>, t: nat)
    requires Distinct(p2) && IsPermutationOf(p1, p2) && Unfilled !in p1 && t < |p2|
    ensures p2[t] != Unfilled
    ensures p2[t] !in p2[..t]
  {
    assert p2[t] in multiset(p2);
    assert forall j :: 0 <= j < t ==> p2[..t][j] != p2[t];
  }

  /** The segment's genes are in every partial child. */
  lemma SegmentInPartial(p1: seq<int>, items: seq<int>, start: nat, end: nat, m: nat, x: int)
    requires start < end <= |p1| && m <= |items|
    ensures x in p1[start..end] ==> x in Partial(p1, items, start, end, m)
  {
    if x in p1[start..end] {
      var k :| 0 <= k < end - start && p1[start..end][k] == x;
      assert Partial(p1, items, start, end, m)[start + k] == x;
    }
  }

  /** A partial child holds only the segment's genes, the genes written so far, and `-1`. */
  lemma PartialValues(p1: seq<int>, items: seq<int>, start: nat, end: nat, m: nat, x: int)
    requires start < end <= |p1| && m <= |items|
    ensures x in Partial(p1, items, start, end, m) ==>
      x in p1[start..end] || x in items[..m] || x == Unfilled
  {
    var child := Partial(p1, items, start, end, m);
    if x in child {
      var i :| 0 <= i < |child| && child[i] == x;
      if start <= i < end {
        assert p1[start..end][i - start] == x;
      } else if Offset(i, |p1|, end) < m {
        assert items[..m][Offset(i, |p1|, end)] == x;
      }
    }
  }

  /** How many genes the fill loop has written before it reaches gene `t` of parent2. */
  function Written(p1: seq<int>, p2: seq<int>, start: nat, end: nat, t: nat): (m: nat)
    requires WellFormedParents(p1, p2, start, end) && t <= |p2|
    ensures m <= |Without(p2, p1[start..end])| == |p1| - (end - start)
  {
    WithoutPrefix(p2, p1[start..end], t);
    RemainderOfSlice(p1, p2, start, end);
    |Without(p2[..t], p1[start..end])|
  }

  /** The child when the fill loop reaches gene `t` of parent2. */
  function Stage(p1: seq<int>, p2: seq<int>, start: nat, end: nat, t: nat): seq<int>
    requires WellFormedParents(p1, p2, start, end) && t <= |p2|
  {
    Partial(p1, Without(p2, p1[start..end]), start, end, Written(p1, p2, start, end, t))
  }

  /** One iteration of the fill loop moves from the stage at gene `t` to the stage at `t + 1`. */
  lemma StageStep(p1: seq<int>, p2: seq<int>, start: nat, end: nat, t: nat)
    requires WellFormedParents(p1, p2, start, end) && t < |p2|
    ensures Pointer(Written(p1, p2, start, end, t), |p1|, end) < |p1|
    ensures Place(Stage(p1, p2, start, end, t), Pointer(Written(p1, p2, start, end, t), |p1|, end), p2[t..])
         == Place(Stage(p1, p2, start, end, t + 1), Pointer(Written(p1, p2, start, end, t + 1), |p1|, end), p2[t + 1..])
  {
    var n := |p1|;
    var items := Without(p2, p1[start..end]);
    var m := Written(p1, p2, start, end, t);
    var ptr := Pointer(m, n, end);
    var child := Stage(p1, p2, start, end, t);
    var x := p2[t];
    assert p2[t..][0] == x && p2[t..][1..] == p2[t + 1..];
    WithoutStep(p2, p1[start..end], t);
    PartialMembership(p1, p2, start, end, t);
    if x in p1[start..end] {
      assert Written(p1, p2, start, end, t + 1) == m;
      assert Place(child, ptr, p2[t..]) == Place(child, ptr, p2[t + 1..]);
    } else {
      assert Written(p1, p2, start, end, t + 1) == m + 1;
      WithoutPrefix(p2, p1[start..end], t + 1);
      assert items[m] == x;
      PartialStep(p1, items, start, end, m);
      PointerAdvance(n, start, end, m);
      assert Place(child, ptr, p2[t..]) == Place(child[ptr := x], (ptr + 1) % n, p2[t + 1..]);
    }
  }

  /** The fill loop, entered at gene `t` of parent2 with the partial child and pointer that
      the earlier genes produce, ends with every outside position filled. */
  lemma {:induction false} PlaceFrom(p1: seq<int>, p2: seq<int>, start: nat, end: nat, t: nat)
    requires WellFormedParents(p1, p2, start, end) && t <= |p2|
    ensures Pointer(Written(p1, p2, start, end, t), |p1|, end) < |p1|
    ensures Place(Stage(p1, p2, start, end, t), Pointer(Written(p1, p2, start, end, t), |p1|, end), p2[t..])
         == Stage(p1, p2, start, end, |p2|)
    decreases |p2| - t
  {
    if t == |p2| {
      assert p2[t..] == [];
      assert Written(p1, p2, start, end, t) <= |p1| - (end - start);
    } else {
      StageStep(p1, p2, start, end, t);
      PlaceFrom(p1, p2, start, end, t + 1);
    }
  }

  /** Before the first gene nothing is written: the stage is the fresh child. */
  lemma StageStart(p1: seq<int>, p2: seq<int>, start: nat, end: nat)
    requires WellFormedParents(p1, p2, start, end)
    ensures Written(p1, p2, start, end, 0) == 0
    ensures Stage(p1, p2, start, end, 0) == Template(p1, start, end)
  {
    assert p2[..0] == [];
    var first := Stage(p1, p2, start, end, 0);
    var t := Template(p1, start, end);
    forall i | 0 <= i < |p1| ensures first[i] == t[i] {
    }
    assert first == t;
  }

  /** After the last gene every remaining gene is written. */
  lemma StageFinish(p1: seq<int>, p2: seq<int>, start: nat, end: nat)
    requires WellFormedParents(p1, p2, start, end)
    ensures |Without(p2, p1[start..end])| == |p1| - (end - start)
    ensures Stage(p1, p2, start, end, |p2|)
         == Partial(p1, Without(p2, p1[start..end]), start, end, |p1| - (end - start))
  {
    RemainderOfSlice(p1, p2, start, end);
    assert p2[..|p2|] == p2;
  }

  /** When the parents are well formed, every position outside the segment is filled by the
      fill loop: the positions from `end` to the last get parent2's remaining genes first, the
      positions before `start` the rest, each group in parent2's order. The safety pass then
      changes nothing, and the child is a duplicate-free rearrangement of parent1. */
  lemma WrapCrossoverPermutation(p1: seq<int>, p2: seq<int>, start: nat, end: nat)
    requires WellFormedParents(p1, p2, start, end)
    ensures var child := WrapCrossover(p1, p2, start, end);
      var items := Without(p2, p1[start..end]);
      && |items| == |p1| - (end - start)
      && child[start..end] == p1[start..end]
      && child[end..] == items[..|p1| - end]
      && child[..start] == items[|p1| - end..]
      && child == PlaceStage(p1, p2, start, end)
      && IsPermutationOf(child, p1)
      && Distinct(child)
  {
    var items := Without(p2, p1[start..end]);
    PlacedIsFull(p1, p2, start, end);
    FullShape(p1, p2, start, end);
    var full := Partial(p1, items, start, end, |items|);
    assert Repair(full, p2, 0) == full;
  }

  /** The fill loop fills every position outside the segment. */
  lemma PlacedIsFull(p1: seq<int>, p2: seq<int>, start: nat, end: nat)
    requires WellFormedParents(p1, p2, start, end)
    ensures var items := Without(p2, p1[start..end]);
      && |items| == |p1| - (end - start)
      && PlaceStage(p1, p2, start, end) == Partial(p1, items, start, end, |items|)
  {
    var written := Written(p1, p2, start, end, 0);
    StageStart(p1, p2, start, end);
    assert Pointer(written, |p1|, end) == end;
    assert p2[0..] == p2;
    PlaceFrom(p1, p2, start, end, 0);
    assert PlaceStage(p1, p2, start, end) == Stage(p1, p2, start, end, |p2|);
    StageFinish(p1, p2, start, end);
  }

  /** The completely filled child: no `-1` left, the segment in place, the remaining genes
      from `end` on and then from 0, and a duplicate-free rearrangement of parent1. */
  lemma FullShape(p1: seq<int>, p2: seq<int>, start: nat, end: nat)
    requires WellFormedParents(p1, p2, start, end)
    ensures var items := Without(p2, p1[start..end]);
      && |items| == |p1| - (end - start)
      && var full := Partial(p1, items, start, end, |items|);
      && (forall i :: 0 <= i < |full| ==> full[i] != Unfilled)
      && full[start..end] == p1[start..end]
      && full[end..] == items[..|p1| - end]
      && full[..start] == items[|p1| - end..]
      && IsPermutationOf(full, p1)
      && Distinct(full)
  {
    var n := |p1|;
    var items := Without(p2, p1[start..end]);
    RemainderOfSlice(p1, p2, start, end);
    FullSlices(p1, items, start, end);
    var full := Partial(p1, items, start, end, |items|);
    forall i | 0 <= i < n ensures full[i] != Unfilled {
      if start <= i < end {
        assert p1[i] in p1;
      } else {
        var o := Offset(i, n, end);
        assert items[o] in p2;
        assert items[o] in multiset(p1);
      }
    }
    PermutationKeepsDistinct(p1, p2);
    PermutationKeepsDistinct(full, p1);
  }

  /** The filled child read in three slices: before the segment, the segment, after it. */
  lemma FullSlices(p1: seq<int>, items: seq<int>, start: nat, end: nat)
    requires start < end < |p1| && |items| == |p1| - (end - start)
    ensures var full := Partial(p1, items, start, end, |items|);
      && full[start..end] == p1[start..end]
      && full[end..] == items[..|p1| - end]
      && full[..start] == items[|p1| - end..]
      && multiset(full) == multiset(items) + multiset(p1[start..end])
  {
    var n := |p1|;
    var full := Partial(p1, items, start, end, |items|);
    assert full[start..end] == p1[start..end];
    assert full[end..] == items[..n - end];
    assert full[..start] == items[n - end..];
    SliceOutMultiset(full, start, end, items[n - end..] + items[..n - end], p1[start..end]);
    assert items == items[..n - end] + items[n - end..];
  }

  // ---------------------------------------------------------------------------------------
  // Mutation

  /** `mutate` with the draw `u` of `random.random()` and the pair `i, j` drawn by
      `random.sample(range(n), 2)` (only consumed when `u < rate`). */
  function MutateOnce(ind: seq<int>, rate: real, u: real, i: nat, j: nat): (r: seq<int>)
    requires 0.0 <= u < 1.0
    requires u < rate ==> i < |ind| && j < |ind| && i != j
    ensures |r| == |ind|
    ensures IsPermutationOf(r, ind)
    ensures u >= rate ==> r == ind
    ensures u < rate ==> r[i] == ind[j] && r[j] == ind[i]
    ensures forall k :: 0 <= k < |ind| && (u >= rate || (k != i && k != j)) ==> r[k] == ind[k]
  {
    if u < rate then Swap(ind, i, j) else ind
  }

  /** Repeating the same draw undoes a mutation. */
  lemma MutateOnceInvolution(ind: seq<int>, rate: real, u: real, i: nat, j: nat)
    requires 0.0 <= u < 1.0
    requires u < rate ==> i < |ind| && j < |ind| && i != j
    ensures MutateOnce(MutateOnce(ind, rate, u, i, j), rate, u, i, j) == ind
  {
    var once := MutateOnce(ind, rate, u, i, j);
    var twice := MutateOnce(once, rate, u, i, j);
    assert forall k :: 0 <= k < |ind| ==> twice[k] == ind[k];
  }

  // ---------------------------------------------------------------------------------------
  // Fitness

  /** Every identifier of `route` is a key of the customer dict. */
  predicate KnownIds(route: seq<int>, customers: Entries<Point>) {
    forall k :: 0 <= k < |route| ==> route[k] in KeysOf(customers)
  }

  /** The legs between neighbouring customers of a route. */
  function VrpLegs(route: seq<int>, customers: Entries<Point>, dist: (Point, Point) -> real): (d: real)
    requires KnownIds(route, customers)
    ensures (forall p, q :: dist(p, q) >= 0.0) ==> d >= 0.0
  {
    if |route| < 2 then 0.0
    else dist(Lookup(customers, route[0]), Lookup(customers, route[1])) + VrpLegs(route[1..], customers, dist)
  }

  /** The points a route visits, in order. */
  function Stops(route: seq<int>, customers: Entries<Point>): (ps: seq<Point>)
    requires KnownIds(route, customers)
    ensures |ps| == |route|
    ensures forall k :: 0 <= k < |route| ==> ps[k] == Lookup(customers, route[k])
  {
    seq(|route|, k requires 0 <= k < |route| => Lookup(customers, route[k]))
  }

  /** The length of the polyline through `ps`: the sum of the legs between neighbours. */
  function PathLength(ps: seq<Point>, dist: (Point, Point) -> real): real {
    if |ps| < 2 then 0.0 else dist(ps[0], ps[1]) + PathLength(ps[1..], dist)
  }

  /** Extending a polyline by one point adds exactly the leg that reaches it. */
  lemma {:induction false} PathAppend(ps: seq<Point>, x: Point, dist: (Point, Point) -> real)
    requires |ps| > 0
    ensures PathLength(ps + [x], dist) == PathLength(ps, dist) + dist(ps[|ps| - 1], x)
  {
    assert (ps + [x])[1..] == ps[1..] + [x];
    if |ps| > 1 {
      PathAppend(ps[1..], x, dist);
    }
  }

  /** The legs between neighbouring customers are the polyline through their points. */
  lemma {:induction false} VrpLegsIsPath(route: seq<int>, customers: Entries<Point>, dist: (Point, Point) -> real)
    requires KnownIds(route, customers)
    ensures VrpLegs(route, customers, dist) == PathLength(Stops(route, customers), dist)
  {
    if |route| >= 2 {
      VrpLegsIsPath(route[1..], customers, dist);
      assert Stops(route, customers)[1..] == Stops(route[1..], customers);
    }
  }

  /** The tour of one vehicle: from the depot to its first customer, along the route and back.
      Empty routes are skipped and contribute nothing. */
  function VrpRouteCost(route: seq<int>, depot: Point, customers: Entries<Point>, dist: (Point, Point) -> real): (d: real)
    requires KnownIds(route, customers)
    ensures (forall p, q :: dist(p, q) >= 0.0) ==> d >= 0.0
    ensures |route| == 0 ==> d == 0.0
    ensures |route| > 0 ==> d == PathLength([depot] + Stops(route, customers) + [depot], dist)
  {
    if |route| == 0 then 0.0
    else
      var stops := Stops(route, customers);
      VrpLegsIsPath(route, customers, dist);
      PathAppend([depot] + stops, depot, dist);
      assert ([depot] + stops)[1..] == stops;
      dist(depot, Lookup(customers, route[0])) + VrpLegs(route, customers, dist)
        + dist(Lookup(customers, route[|route| - 1]), depot)
  }

  predicate AllKnown(routes: seq<seq<int>>, customers: Entries<Point>) {
    forall r :: 0 <= r < |routes| ==> KnownIds(routes[r], customers)
  }

  function VrpSumRoutes(routes: seq<seq<int>>, depot: Point, customers: Entries<Point>, dist: (Point, Point) -> real): (d: real)
    requires AllKnown(routes, customers)
    ensures (forall p, q :: dist(p, q) >= 0.0) ==> d >= 0.0
    ensures (forall r :: 0 <= r < |routes| ==> routes[r] == []) ==> d == 0.0
  {
    if |routes| == 0 then 0.0
    else VrpRouteCost(routes[0], depot, customers, dist) + VrpSumRoutes(routes[1..], depot, customers, dist)
  }

  lemma DecodedRoutesKnown(ind: seq<int>, customers: Entries<Point>, v: nat)
    requires v >= 1 && KnownIds(ind, customers)
    ensures AllKnown(DecodeRoutes(ind, v), customers)
  {
    var routes := DecodeRoutes(ind, v);
    forall r, i | 0 <= r < |routes| && 0 <= i < |routes[r]| ensures routes[r][i] in KeysOf(customers) {
      FlattenContains(routes, r, i);
    }
  }

  /** The total length of the tours of the `v` decoded routes. */
  function VrpTotal(ind: seq<int>, depot: Point, customers: Entries<Point>, v: nat, dist: (Point, Point) -> real): (d: real)
    requires v >= 1 && KnownIds(ind, customers)
    ensures (forall p, q :: dist(p, q) >= 0.0) ==> d >= 0.0
  {
    DecodedRoutesKnown(ind, customers, v);
    VrpSumRoutes(DecodeRoutes(ind, v), depot, customers, dist)
  }

  /** `1 / total` when the total is positive, else 0. */
  function Reciprocal(total: real): (f: real)
    ensures f >= 0.0
    ensures total > 0.0 ==> f > 0.0 && f * total == 1.0
    ensures total <= 0.0 ==> f == 0.0
  {
    if total > 0.0 then 1.0 / total else 0.0
  }

  /** The fitness the algorithm maximises: never negative, and positive exactly when the
      tours have positive length. */
  function VrpFitness(ind: seq<int>, depot: Point, customers: Entries<Point>, v: nat, dist: (Point, Point) -> real): (f: real)
    requires v >= 1 && KnownIds(ind, customers)
    ensures f >= 0.0
    ensures f > 0.0 <==> VrpTotal(ind, depot, customers, v, dist) > 0.0
    ensures f * VrpTotal(ind, depot, customers, v, dist) == (if f > 0.0 then 1.0 else 0.0)
  {
    Reciprocal(VrpTotal(ind, depot, customers, v, dist))
  }

  /** Among positive totals, the shorter one has the larger fitness, and equal totals have
      equal fitness. */
  lemma ReciprocalOrder(t1: real, t2: real)
    requires t1 > 0.0 && t2 > 0.0
    ensures t1 < t2 <==> Reciprocal(t1) > Reciprocal(t2)
    ensures t1 == t2 <==> Reciprocal(t1) == Reciprocal(t2)
  {
    if t1 < t2 {
      ReciprocalDecreasing(t1, t2);
    } else if t2 < t1 {
      ReciprocalDecreasing(t2, t1);
    }
  }

  /** The longer of two positive totals has the smaller fitness. */
  lemma ReciprocalDecreasing(t1: real, t2: real)
    requires 0.0 < t1 < t2
    ensures Reciprocal(t1) > Reciprocal(t2)
  {
    var f1, f2 := Reciprocal(t1), Reciprocal(t2);
    assert f2 * t1 < f2 * t2;
    assert f1 * t1 == 1.0;
  }

  /** The point behind matrix index `i`: a customer for a known non-zero identifier, and the
      depot otherwise. */
  function PointAt(depot: Point, customers: Entries<Point>, i: int): Point {
    if i != 0 && i in KeysOf(customers) then Lookup(customers, i) else depot
  }

  /** `m` holds the distances between the points behind its indices. */
  predicate MatrixAgrees(m: Matrix, depot: Point, customers: Entries<Point>, dist: (Point, Point) -> real) {
    IsSquare(m) &&
    forall i, j :: 0 <= i < |m| && 0 <= j < |m| ==> m[i][j] == dist(PointAt(depot, customers, i), PointAt(depot, customers, j))
  }

  /** Identifiers usable by both fitness functions: known customers, matrix indices, and not
      the depot's index 0. */
  predicate SharedIds(route: seq<int>, m: Matrix, customers: Entries<Point>) {
    && ValidIds(route, m)
    && KnownIds(route, customers)
    && NoDepotId(route)
  }

  predicate NoDepotId(route: seq<int>) {
    forall k :: 0 <= k < |route| ==> route[k] != 0
  }

  lemma {:induction false} LegsAgree(route: seq<int>, m: Matrix, depot: Point, customers: Entries<Point>, dist: (Point, Point) -> real)
    requires SharedIds(route, m, customers) && MatrixAgrees(m, depot, customers, dist)
    ensures VrpLegs(route, customers, dist) == Legs(route, m)
  {
    if |route| >= 2 {
      LegsAgree(route[1..], m, depot, customers, dist);
      assert m[route[0]][route[1]] == dist(PointAt(depot, customers, route[0]), PointAt(depot, customers, route[1]));
    }
  }

  lemma RouteCostAgrees(route: seq<int>, m: Matrix, depot: Point, customers: Entries<Point>, dist: (Point, Point) -> real)
    requires SharedIds(route, m, customers) && MatrixAgrees(m, depot, customers, dist)
    ensures VrpRouteCost(route, depot, customers, dist) == RouteDistance(route, m)
  {
    if |route| > 0 {
      LegsAgree(route, m, depot, customers, dist);
      var first, last := route[0], route[|route| - 1];
      assert m[0][first] == dist(depot, PointAt(depot, customers, first));
      assert m[last][0] == dist(PointAt(depot, customers, last), depot);
    }
  }

  lemma {:induction false} SumRoutesAgree(routes: seq<seq<int>>, m: Matrix, depot: Point, customers: Entries<Point>, dist: (Point, Point) -> real)
    requires AllValid(routes, m) && AllKnown(routes, customers)
    requires forall r :: 0 <= r < |routes| ==> NoDepotId(routes[r])
    requires MatrixAgrees(m, depot, customers, dist)
    ensures VrpSumRoutes(routes, depot, customers, dist) == SumRoutes(routes, m)
  {
    if |routes| > 0 {
      RouteCostAgrees(routes[0], m, depot, customers, dist);
      SumRoutesAgree(routes[1..], m, depot, customers, dist);
    }
  }

  /** Over a matrix of the same distances, this module's total equals the matrix-based total
      distance. */
  lemma VrpTotalAgrees(ind: seq<int>, m: Matrix, depot: Point, customers: Entries<Point>, v: nat, dist: (Point, Point) -> real)
    requires v >= 1 && SharedIds(ind, m, customers) && MatrixAgrees(m, depot, customers, dist)
    ensures VrpTotal(ind, depot, customers, v, dist) == TotalDistance(ind, m, v)
  {
    DecodedRoutesShared(ind, m, customers, v);
    SumRoutesAgree(DecodeRoutes(ind, v), m, depot, customers, dist);
  }

  /** The reciprocal fitness is the reciprocal of the negated matrix-based fitness. */
  lemma VrpFitnessAgrees(ind: seq<int>, m: Matrix, depot: Point, customers: Entries<Point>, v: nat, dist: (Point, Point) -> real)
    requires v >= 1 && SharedIds(ind, m, customers) && MatrixAgrees(m, depot, customers, dist)
    ensures VrpFitness(ind, depot, customers, v, dist) == Reciprocal(-Fitness.Fitness(ind, m, v))
  {
    VrpTotalAgrees(ind, m, depot, customers, v, dist);
    var total := TotalDistance(ind, m, v);
    assert -Fitness.Fitness(ind, m, v) == total;
    assert VrpFitness(ind, depot, customers, v, dist) == Reciprocal(VrpTotal(ind, depot, customers, v, dist));
  }

  /** The decoded routes of an individual with shared identifiers have shared identifiers. */
  lemma DecodedRoutesShared(ind: seq<int>, m: Matrix, customers: Entries<Point>, v: nat)
    requires v >= 1 && SharedIds(ind, m, customers)
    ensures var routes := DecodeRoutes(ind, v);
      && AllValid(routes, m)
      && AllKnown(routes, customers)
      && forall r :: 0 <= r < |routes| ==> NoDepotId(routes[r])
  {
    var routes := DecodeRoutes(ind, v);
    forall r, i | 0 <= r < |routes| && 0 <= i < |routes[r]|
      ensures 0 <= routes[r][i] < |m| && routes[r][i] in KeysOf(customers) && routes[r][i] != 0
    {
      FlattenContains(routes, r, i);
    }
  }
}
